=== FILE: README.md ===
# Pomodoro with atmosphere — a Dafny model of its core

The app is one React component, `src/App.jsx`. It is a Pomodoro timer with
three modes: focus (25 minutes), short break (5) and long break (15). Each mode
has a duration the user can change. Behind the timer sits an "atmosphere": an
animated image or a muted YouTube video, picked from one list for focus and
one list shared by both breaks. There is also a master mute for the
background video and the music.

This project lifts the pure logic out of the component. It models:

- the duration clamp (`clampMinutes`, `getModeSeconds`);
- the countdown as a state machine, one function per event. Each event
  folds in the React effects it triggers: the countdown/expiry effect and the
  effect that syncs the countdown to the mode and the durations. So every
  function returns the state once the screen has settled;
- the `MM:SS` rendering of the countdown, with a decoder proved to invert it;
- the atmosphere lists:
  - the clean-up of lists read back from storage;
  - the choice of the current background;
  - selecting, adding, editing and deleting backgrounds;
- the YouTube link parser and the embed-URL builder;
- the master mute toggle;
- loading the saved settings at start-up, and the document written back on
  every change.

Modules:

| module | file | contents |
|---|---|---|
| `Optional` | optional.dfy | `Option`, JavaScript truthiness of optional strings, query lookup |
| `JsText` | js_text.dfy | `trim`, `split`/`join`, `toString` of naturals, `padStart`, decimal values |
| `Duration` | duration.dfy | modes, `MODES`, the `Number()` outcome `Num`, the clamp, per-mode durations |
| `TimeFormat` | time_format.dfy | `formatTime` and its decoder |
| `Timer` | timer.dfy | the countdown state machine and its invariants |
| `YouTube` | youtube.dfy | `parseYouTubeLink`, `buildYouTubeEmbed` |
| `Atmosphere` | atmosphere.dfy | background lists, sanitizing, current background, select/add/update/delete |
| `Sound` | sound.dfy | the mixer and the master mute |
| `Persistence` | persistence.dfy | start-up load and the persisted document |

Inputs the model cannot compute are taken as values or parameters:

- `Number(value)` becomes its outcome: `NaN`, a finite real, or ±Infinity.
- `Math.round` on a finite value is `(x + 0.5).Floor`.
- `new URL(link)` is a parameter `parse: string -> Option<Url>`. `None` means
  the constructor threw.
- The fresh id of an added background (`user-<Date.now()>-<random>`) is a
  parameter of type `UserId`.
- The object URL of a chosen file is a `BlobUrl` in the form.

The code has three ways of putting time on the clock, and they do not agree:

- `switchMode` (src/App.jsx:425) and the effect that syncs the clock to the
  mode and the durations (src/App.jsx:441-444) use `getModeSeconds`, the
  configured length of the mode.
- The Reset button (src/App.jsx:1413-1416) uses `MODES[mode].time`, the
  built-in 1500/300/900 seconds, whatever the user configured.
- Saving the durations (src/App.jsx:1007-1009) always stops the countdown and
  sets the clock from the old durations; the sync effect then re-times the
  current mode from the new ones.

So "the countdown never exceeds the configured length" holds after every
event except Reset. `Timer.StepKeepsWithinDuration` proves the bound for every
other event. `Timer.ResetWithinDurationIff` and `Timer.ResetCanExceedDuration`
show when Reset breaks it. The Play/Pause button (src/App.jsx:1425) has no
guard on the time left; pressing Play at zero is undone at once by the expiry
branch of the countdown effect (`Timer.PlayPause`).

## Model

| member | source | states |
|---|---|---|
| `Duration.ClampMinutes` | src/App.jsx:203-207 | the result is always in 1..180; NaN and -Infinity give 1, +Infinity gives 180; a finite value is rounded half up to its nearest integer, then clamped |
| `Duration.RoundHalfUp` | src/App.jsx:206 | `Math.round` lies within half a unit of its argument, halves going up |
| `Duration.ClampIdempotent` | src/App.jsx:203-207 | clamping an already clamped value gives it back |
| `Duration.ModeSeconds` | src/App.jsx:209 | whatever is stored, a mode's length is a whole number of minutes from 60 to 10800 seconds, equal to the clamped minutes times 60 |
| `Duration.DefaultDurationsMatchModes` | src/App.jsx:5-27 | the initial 25/5/15 minutes give exactly the built-in `MODES` times |
| `Duration.ModeFromKey` | src/App.jsx:248 | the stored mode is accepted only when it is one of the three keys, and then it names that mode |
| `Duration.ModeKeyRoundTrip` | src/App.jsx:248 | a mode written under its key reads back as the same mode |
| `Duration.ClampAll` | src/App.jsx:1001-1005 | the sanitized durations hold each mode's clamped draft |
| `Duration.ClampAllIdempotent` | src/App.jsx:1001-1007 | sanitizing twice changes nothing and keeps every mode's length in seconds |
| `JsText.Trim` | src/App.jsx:162 | `trim` is a middle slice of the input whose cut-off ends are all white space; it is empty exactly when the input is all white space, and otherwise neither of its ends is white space |
| `JsText.TrimSlice` | src/App.jsx:162 | the trailing trim of the leading trim is one slice of the input, with white space on both sides |
| `JsText.TrimStart` | src/App.jsx:162 | the leading trim keeps a suffix and drops only white space |
| `JsText.TrimEnd` | src/App.jsx:162 | the trailing trim keeps a prefix and drops only white space |
| `JsText.Split` | src/App.jsx:149 | `split` gives at least one piece, no piece holds the separator, and joining the pieces gives back the input |
| `JsText.SplitJoin` | src/App.jsx:149 | splitting a join of separator-free pieces gives back those pieces |
| `JsText.SplitPrefix` | src/App.jsx:149 | a separator-free prefix merges into the first piece of the rest |
| `JsText.NatToString` | src/App.jsx:200 | `toString` of a natural is its shortest decimal form, with no leading zero, 1/2/3 digits below 10/100/1000 |
| `JsText.PadStart` | src/App.jsx:200 | `padStart` reaches the width, ends with the input, and fills the front with the fill character |
| `JsText.LeadingZerosValue` | src/App.jsx:200 | padding with zeros keeps the number a digit run denotes |
| `TimeFormat.Pad2` | src/App.jsx:200 | the padded number still denotes the same value, with 2 digits below 100 and 3 from 100 to 999 |
| `TimeFormat.FormatTime` | src/App.jsx:197-201 | a display is the whole minutes (at least two digits, never truncated), a colon, then exactly two digits for the remaining seconds below 60; 5 characters below 100 minutes, 6 up to 999 |
| `TimeFormat.Display` | src/App.jsx:200 | padded minutes, a colon and padded seconds show those minutes and seconds |
| `TimeFormat.ColonJoinShows` | src/App.jsx:200 | two digit runs, the second two long, joined by a colon show the numbers they denote |
| `TimeFormat.FormatTimeLength` | src/App.jsx:197-201 | a display is 5 characters below 100 minutes and 6 from 100 to 999 minutes |
| `TimeFormat.FormatTimeRoundTrip` | src/App.jsx:197-201 | reading a display back gives the number of seconds it was made from |
| `TimeFormat.FormatTimeInjective` | src/App.jsx:197-201 | two different second counts never show the same display |
| `TimeFormat.ParseJoined` | src/App.jsx:200 | a `minutes:seconds` string of digit runs decodes to minutes times 60 plus seconds |
| `Timer.TimerEffect` | src/App.jsx:411-417 | at zero the countdown effect stops the countdown and clears the quote and changes nothing else; with time left it changes nothing |
| `Timer.SyncEffect` | src/App.jsx:440-444 | the sync effect stops the countdown at the configured length of the current mode, at least 60 seconds, and changes nothing else |
| `Timer.SaveHandler` | src/App.jsx:999-1011 | the submit handler on its own stores every mode's clamped draft in the durations and in the form and stops the countdown, but at the length from the old durations |
| `Timer.Tick` | src/App.jsx:406-419 | a running countdown with time left loses exactly one second and nothing else changes; the last second also stops it and clears the quote; a stopped or finished countdown ignores the tick |
| `Timer.SwitchMode` | src/App.jsx:422-428 | switching sets the mode, stops the countdown at the mode's configured length, clears the quote and the quote error, and keeps the durations |
| `Timer.EditDraft` | src/App.jsx:1025-1030 | typing changes only that mode's field of the duration form |
| `Timer.SaveDurations` | src/App.jsx:999-1011 | saving stores every mode's clamped draft, shows the same values in the form, and stops the countdown at the new length of the current mode |
| `Timer.SaveHandlerAloneIsStale` | src/App.jsx:1009 | the handler on its own would show the old length; the sync effect puts the new one on the clock |
| `Timer.SaveDurationsIdempotent` | src/App.jsx:999-1011 | saving twice is the same as saving once |
| `Timer.Reset` | src/App.jsx:1413-1416 | Reset stops the countdown at the built-in `MODES` length of the mode and changes nothing else |
| `Timer.PlayPause` | src/App.jsx:1425 | Play/Pause flips the running flag whatever the time left; at zero the expiry branch at once stops it again and clears the quote |
| `Timer.InitialIsConsistent` | src/App.jsx:63-75 | the start state is non-negative, stopped, and within the focus length |
| `Timer.StepKeepsConsistent` | src/App.jsx:406-419 | no event makes the countdown negative or leaves it running at zero |
| `Timer.StepKeepsWithinDuration` | src/App.jsx:422-444 | every event except Reset keeps the countdown within the configured length of the current mode |
| `Timer.ResetWithinDurationIff` | src/App.jsx:1413-1416 | after Reset the countdown is within the configured length exactly when that length is at least the built-in one |
| `Timer.ResetCanExceedDuration` | src/App.jsx:1413-1416 | with focus saved at 10 minutes, Reset puts 25 minutes on the clock |
| `Timer.Countdown` | src/App.jsx:406-419 | from N running seconds, t ≤ N ticks leave N − t; the countdown is still running before zero and stopped with no quote at zero |
| `Timer.IdleIgnoresTicks` | src/App.jsx:407 | a countdown that is not running ignores any number of ticks |
| `Timer.PauseResume` | src/App.jsx:1425 | pausing, waiting any number of ticks and resuming gives back the exact state before the pause |
| `Timer.ExpiryIdempotent` | src/App.jsx:411-417 | at zero, expiry stops the countdown and clears the quote, and running it again changes nothing |
| `Timer.FocusSessionScenario` | src/App.jsx:406-428 | a default focus session runs 1500 seconds down to zero and stops; a short break then shows 300 seconds |
| `Optional.Lookup` | src/App.jsx:146-147 | a query parameter is present exactly when its key is, with the stored value |
| `YouTube.PathSegments` | src/App.jsx:149 | path segments are non-empty and slash-free, and together hold every character of the path except its slashes |
| `YouTube.ConcatSplit` | src/App.jsx:149 | the pieces of a split hold exactly the characters that are not separators |
| `YouTube.DropEmpty` | src/App.jsx:149 | `.filter(Boolean)` keeps every non-empty piece and only those |
| `YouTube.DropEmptyAppend` | src/App.jsx:149 | the filter works piece by piece, so it keeps the order and the multiplicity of the pieces |
| `YouTube.PathSegmentsOfJoin` | src/App.jsx:149 | the segments of `/` followed by slash-free pieces joined with `/` are exactly the non-empty pieces, in order; empty pieces (doubled or trailing slashes) vanish |
| `YouTube.DropEmptyOfNonEmpty` | src/App.jsx:149 | filtering pieces that are all non-empty changes nothing |
| `YouTube.VideoIdFromPath` | src/App.jsx:149-153 | a video is found exactly when there is a segment; after a first segment `shorts` or `embed` it is the second segment when there is one; otherwise it is the last segment |
| `YouTube.ParseLink` | src/App.jsx:143-158 | an unparsable link gives neither id; the playlist is the `list` parameter; a truthy `v` is the video; otherwise a video is found exactly when the path has a segment |
| `YouTube.ParseLinkFromPath` | src/App.jsx:148-153 | without a truthy `v`, the video is what the path rules find |
| `YouTube.WatchLink` | src/App.jsx:147 | a `watch?v=ID` link gives video ID and no playlist |
| `YouTube.MarkedPathLink` | src/App.jsx:150-151 | a `/shorts/ID/…` or `/embed/ID/…` path gives the segment after the marker |
| `YouTube.ShortLink` | src/App.jsx:152 | a `youtu.be/ID` path gives its only segment |
| `YouTube.TrailingSlashLink` | src/App.jsx:149-152 | a trailing slash does not change the video of a one-segment path |
| `YouTube.LastSegmentLink` | src/App.jsx:149-152 | a path not starting with `shorts` or `embed` gives its last segment as the video |
| `YouTube.PathOnlyLink` | src/App.jsx:147-153 | a link with no query at all takes its video from the path rules and has no playlist |
| `YouTube.SeriesEmbed` | src/App.jsx:164-166 | the playlist player starts with the `videoseries` prefix and the list id, and ends with its fixed parameters |
| `YouTube.VideoEmbed` | src/App.jsx:167-169 | the video player starts with the embed base and the id, and ends by naming the id again as the loop playlist |
| `YouTube.BuildEmbed` | src/App.jsx:164-170 | an embed exists exactly when a playlist or a video id is truthy; a playlist wins and gives the `videoseries` player; a video gives a player that repeats the id as its loop playlist |
| `YouTube.EmbedLink` | src/App.jsx:160-173 | every embed built from a link is a `youtube.com/embed/` URL |
| `YouTube.PlaylistWins` | src/App.jsx:164-166 | any link with a truthy `list` gives the playlist player for that list, whatever the video |
| `YouTube.VideoWins` | src/App.jsx:147-169 | a link with a truthy `v` and no truthy `list` gives exactly the video player URL, with its fixed parameters and the video repeated as its loop playlist |
| `YouTube.UnparsableHasNoEmbed` | src/App.jsx:155-157 | a link the URL constructor rejects has no embed |
| `Atmosphere.InitialLibraryWellFormed` | src/App.jsx:30-41 | both built-in lists are non-empty, complete, and hold no session images |
| `Atmosphere.FindById` | src/App.jsx:312 | `find` by id returns the first entry with that id, or nothing when no entry has it |
| `Atmosphere.CurrentBg` | src/App.jsx:310-314 | the current background is the first entry of the mode's category that carries the selected id, else the category's first entry; it is missing only when the list is empty |
| `Atmosphere.SelectBg` | src/App.jsx:316-323 | picking a background selects it in the current category only, leaving the lists alone |
| `Atmosphere.SelectShowsEntry` | src/App.jsx:310-323 | a picked entry becomes the current background, provided no earlier entry shares its id |
| `Atmosphere.Keep` | src/App.jsx:217-218 | an entry is kept only with a truthy id, name and url, and never as an image whose url starts with `blob:` |
| `Atmosphere.Revive` | src/App.jsx:219-225 | a kept stored entry becomes a complete background with the stored id, name, url and source; a falsy type becomes "image" and a truthy one is kept |
| `Atmosphere.StoreRevive` | src/App.jsx:217-225 | a complete background that is not a session image is kept on reload and comes back as itself |
| `Atmosphere.KeptEntries` | src/App.jsx:215-226 | the kept entries are complete; every stored entry with truthy id, name and url that is not a blob image is kept, and nothing else |
| `Atmosphere.KeptEntriesAppend` | src/App.jsx:216-226 | filtering works entry by entry, so stored order is preserved |
| `Atmosphere.SanitizeLibrary` | src/App.jsx:211-230 | both categories come out non-empty and complete: each keeps its surviving stored entries, or falls back to the built-in list when none survive |
| `Atmosphere.DropsStoredSessionImage` | src/App.jsx:218 | an entry stored with type exactly "image" and a blob URL is dropped wherever it stands |
| `Atmosphere.KeepsUntypedBlob` | src/App.jsx:218-223 | the same entry stored with no type is kept, and becomes an image with a blob URL |
| `Atmosphere.RestoreSelection` | src/App.jsx:252-255 | the restored selection names an entry of the list: the stored id when some entry carries it, otherwise the first entry |
| `Atmosphere.StoreList` | src/App.jsx:280-293 | every background is written back field for field, in order |
| `Atmosphere.ReloadList` | src/App.jsx:211-230 | a complete list without session images reads back unchanged |
| `Atmosphere.ReloadDropsSessionImages` | src/App.jsx:218 | no session image in a list survives a reload |
| `Atmosphere.NewEntry` | src/App.jsx:449-484 | an accepted form gives a complete entry with the fresh id and the trimmed name |
| `Atmosphere.AddAtmosphere` | src/App.jsx:446-490 | refused exactly without a name, without a usable YouTube link (YouTube type) or without a file (other types); otherwise exactly one entry is appended to the chosen category and selected there, the other category is untouched, and the form is cleared except its category and type |
| `Atmosphere.AddKeepsWellFormed` | src/App.jsx:469-483 | adding keeps both lists non-empty and complete |
| `Atmosphere.AddShowsNewEntry` | src/App.jsx:486 | a newly added background becomes the current one in its category |
| `Atmosphere.ReplaceById` | src/App.jsx:523-525 | the `map` rewrites exactly the entries carrying the id, in place |
| `Atmosphere.EditedEntry` | src/App.jsx:508-544 | the edit is refused exactly for a YouTube edit with a blank or unusable link, or a non-YouTube edit of a YouTube entry without a file; otherwise the entry keeps its id, takes the trimmed name or keeps the old one, and becomes a YouTube entry of the link's embed with the link as source, or an image of the new file or its old url with no source; it stays complete |
| `Atmosphere.UpdateCurrent` | src/App.jsx:502-550 | with no current background nothing happens; otherwise it is refused exactly when the edit is; when applied, exactly the entries carrying the current id are rewritten in place as the edited entry, the other entries, the length, the other category and the selection stay |
| `Atmosphere.UpdateKeepsWellFormed` | src/App.jsx:521-544 | editing keeps both lists non-empty and complete |
| `Atmosphere.RemoveById` | src/App.jsx:557 | the `filter` removes every entry with the id and keeps all others; it is empty exactly when every entry had the id; its first entry is the first entry without the id |
| `Atmosphere.RemoveByIdAppend` | src/App.jsx:557 | the filter works entry by entry, so it keeps the order and the multiplicity of the surviving entries |
| `Atmosphere.DeleteCurrent` | src/App.jsx:552-567 | delete is refused, changing nothing and with the last-in-category error, exactly when no entry would remain; otherwise it is always applied: the category becomes the `filter` of the entries not carrying the current id, in their order and multiplicity, the first of them is selected, and the other category and its selection are untouched |
| `Atmosphere.DeleteKeepsWellFormed` | src/App.jsx:557-564 | deleting never empties a category |
| `Sound.ToggleMasterMute` | src/App.jsx:569-590 | the button flips `masterMuted` and leaves both flags equal; muting keeps the volumes; unmuting replaces a zero background volume by 30 and a zero music volume by 40 |
| `Sound.ToggleTwiceRestores` | src/App.jsx:569-590 | pressing twice restores a mixer whose sources were both muted or both audible, at non-zero volumes |
| `Sound.ToggleFromMixedMutesBoth` | src/App.jsx:569-577 | with one source muted, the button mutes both, so the mixed state is lost |
| `Persistence.LoadTimer` | src/App.jsx:244-248 | the stored durations, or the defaults, go into both the durations and the form; an accepted mode key sets the mode, otherwise focus; the countdown stops at that mode's configured length |
| `Persistence.LoadGallery` | src/App.jsx:249-256 | without stored backgrounds the built-in lists and selections; otherwise the sanitized stored lists and, per category, the stored selection when an entry carries it, else the first entry |
| `Persistence.LoadMixer` | src/App.jsx:257-268 | each mute flag and volume is the stored one, else the default; the music link is taken, into the source, the input and the embed URL, only when it is non-blank and embeds |
| `Persistence.Load` | src/App.jsx:233-274 | with nothing stored the app starts from the defaults; a stored document is merged field by field through the timer, gallery and mixer loaders; in every case both lists are non-empty and complete, the countdown is stopped at the loaded mode's full length, and the form shows the loaded durations |
| `Persistence.Persist` | src/App.jsx:277-293 | the written document holds the mode under its key, the durations, both lists entry for entry with every field, both selections, the mute flags, the volumes, and the music input, link and embed URL of the app |
| `Persistence.PersistLoadRoundTrip` | src/App.jsx:233-308 | persisting and then loading brings back the mode, durations, lists, selections, mute flags, volumes and music link, for any state a reload can reproduce: finite durations, complete lists without session images, selections naming entries, and no music link or one that embeds |
| `Persistence.ReloadForgetsSessionImages` | src/App.jsx:218 | whatever state was persisted, no uploaded image of an earlier page survives a reload |
| `Persistence.EmptyDocumentLoadsDefaults` | src/App.jsx:237-248 | a document with no accepted field loads like no document at all |
| `Persistence.ShortBreakExample` | src/App.jsx:233-308 | saving 25/10/15 minutes in short-break mode and reloading gives short-break mode, those durations and a 10-minute countdown |

## Left out

- JSX rendering, Tailwind classes and the build configuration. Apart from
  the browser's form validation described below, they only affect
  presentation.
- Timer.SaveDurations: the browser's constraint validation is not modelled.
  The duration inputs are `type="number"` with `min="1"` and `max="180"` and
  the default step of 1 (src/App.jsx:1021-1023), and the form has no
  `noValidate`, so the submit handler only ever runs when every field is
  empty or a whole number from 1 to 180; on any other draft pressing Save
  changes nothing. The model applies the handler to every draft, so its clamp
  of 0, 181 or 12.6 describes a save the app never performs; the clamp on
  save matters in the app only for an empty field. The same holds for the
  `type="url"` link fields (src/App.jsx:1078, 1136): text that is not a URL
  never reaches `Atmosphere.AddAtmosphere` or `Atmosphere.UpdateCurrent`, so
  their `LinkInvalid` refusal is reached in the app only by a URL that yields
  no video or playlist id; the library is unchanged either way.
- The YouTube IFrame API: loading it, the player objects and their
  callbacks, and the quality polling (src/App.jsx:43-58, 183-194, 593-801).
  These are foreign objects and asynchronous callbacks. `Sound.ToggleMasterMute`
  models the state the button sets, not the `mute`/`setVolume` calls on the
  players.
- The Gemini quote request and `exponentialBackoffFetch`
  (src/App.jsx:339-402): network I/O, `async` and random jitter. The model
  keeps only `quote` and `apiError` as optional strings that the timer
  events clear.
- `localStorage` and `JSON.parse`/`JSON.stringify`. Loading starts from an
  already-parsed `Persistence.Document`, whose fields are present only when
  the loader would accept them (truthy, a boolean, a number or a string as
  the code checks). Text that does not parse is the absent document.
- Persistence.Load: a stored value with the right key but a non-string type
  (a number as an id, say) is not modelled. Such a value is truthy in
  JavaScript; the model only has strings or nothing.
- The Gemini API key under its own storage key: only the quote feature
  reads it.
- `Number()` and `new URL`: their outcomes are inputs (`Duration.Num`, the
  `parse` parameter).
- Persistence.PersistLoadRoundTrip: a duration of ±Infinity (the user typed
  `1e999`, say) is written by `JSON.stringify` as `null` and reloads as
  `Number(null)`, which is 0 and clamps to 1 minute. `Duration.Num` does not
  tell a number from a string that `Number()` reads, so the round trip is
  stated for finite durations only.
- Duration.ModeFromKey: `MODES[key]` would also accept inherited object keys
  such as `constructor`. The model accepts only the three mode keys.
- Blob URLs: `URL.createObjectURL` and `revokeIfBlob`, id generation with
  `Date.now`/`Math.random`, and the wall clock. The fresh id and the object
  URL are parameters.
- The progress ring (floating point with `Math.PI`) and the one-second
  scheduling: a tick is an abstract event.
- The cycle counter (src/App.jsx:76, 414): nothing ever reads it.
- `imageLoaded`, `bgSwitchKey` and `formMessage`: display-only state. A
  refused form is modelled by its error (`Atmosphere.FormError`), not by its
  message text.
- The effect that refills the edit form from the current background
  (src/App.jsx:431-438), and the reset of the edit form's file field after a
  save. `Atmosphere.EditForm` is an input to `Atmosphere.UpdateCurrent`.
- The music-link form and its player. Only the loading of `audioSource`
  (src/App.jsx:261-268) is modelled.
- Volumes are reals with no range check, as the loader applies them.

=== FILE: atmosphere.dfy ===
/**
 * The atmosphere (background) manager of src/App.jsx: one list of
 * backgrounds per category, the selected background of each category, the
 * clean-up of lists read back from storage, and adding, editing and
 * deleting the current background.
 */
module Atmosphere {
  import opened Optional
  import opened JsText
  import opened Duration
  import opened YouTube

  /**
   * One background. `kind` is its `type`: "image" or "youtube" when the app
   * made it, any non-empty string when it came from storage. `source` is the
   * link a YouTube background was made from.
   */
  datatype Bg = Bg(id: string, name: string, url: string, kind: string, source: Option<string>)

  const ImageKind := "image"
  const YouTubeKind := "youtube"

  predicate IsBlobUrl(url: string) {
    StartsWith(url, "blob:")
  }

  /** A URL minted by `URL.createObjectURL`, which lives only as long as the page. */
  type BlobUrl = u: string | IsBlobUrl(u) witness "blob:"

  /** The shape of the ids `handleAddAtmosphere` mints (`user-<time>-<random>`). */
  type UserId = s: string | StartsWith(s, "user-") witness "user-"

  /** An uploaded image that would not outlive the page. */
  predicate IsSessionImage(b: Bg) {
    b.kind == ImageKind && IsBlobUrl(b.url)
  }

  /** Every field the manager relies on is present. */
  predicate ValidBg(b: Bg) {
    b.id != "" && b.name != "" && b.url != "" && b.kind != ""
  }

  predicate ValidList(list: seq<Bg>) {
    forall k :: 0 <= k < |list| ==> ValidBg(list[k])
  }

  function Other(c: Category): Category {
    if c == FocusCategory then BreakCategory else FocusCategory
  }

  /** The two background lists. */
  datatype Library = Library(focus: seq<Bg>, breaks: seq<Bg>) {

    function Get(c: Category): seq<Bg> {
      if c == FocusCategory then focus else breaks
    }

    /** `{ ...this, [c]: list }`. */
    function With(c: Category, list: seq<Bg>): (r: Library)
      ensures r.Get(c) == list && r.Get(Other(c)) == Get(Other(c))
    {
      if c == FocusCategory then this.(focus := list) else this.(breaks := list)
    }
  }

  /** The selected background id of each category. */
  datatype Selection = Selection(focus: string, breaks: string) {

    function Get(c: Category): string {
      if c == FocusCategory then focus else breaks
    }

    /** The same per-category update as `Library.With`, on the selected ids. */
    function With(c: Category, id: string): (r: Selection)
      ensures r.Get(c) == id && r.Get(Other(c)) == Get(Other(c))
    {
      if c == FocusCategory then this.(focus := id) else this.(breaks := id)
    }
  }

  /** The manager's state: the lists and what is selected in each. */
  datatype Gallery = Gallery(library: Library, selection: Selection)

  /** Both lists non-empty and every entry valid. */
  predicate WellFormed(lib: Library) {
    && |lib.focus| > 0 && ValidList(lib.focus)
    && |lib.breaks| > 0 && ValidList(lib.breaks)
  }

  const Giphy := "https://media.giphy.com/media/"

  /** `INITIAL_BACKGROUNDS`. */
  const InitialLibrary := Library(
    [ Bg("city", "City Traffic", Giphy + "u01ioCe6G8Uo/giphy.gif", ImageKind, None),
      Bg("forest", "Flowing River", Giphy + "13vbPluEPUaMznq/giphy.gif", ImageKind, None),
      Bg("park", "Sunny Park", Giphy + "l41lFj8afX4e0Vdks/giphy.gif", ImageKind, None) ],
    [ Bg("bus", "Bus Stop Rain", Giphy + "HUEyY65hH7cRy/giphy.gif", ImageKind, None),
      Bg("camp", "Cozy Campfire", Giphy + "3o7aCS5oOQeL8C7rKo/giphy.gif", ImageKind, None),
      Bg("cafe", "Coffee Shop", Giphy + "3o7TKrEzvJbsQNq60U/giphy.gif", ImageKind, None) ])

  /** The first entry of each built-in list is selected at start. */
  const InitialSelection := Selection("city", "bus")

  const InitialGallery := Gallery(InitialLibrary, InitialSelection)

  /** A URL that does not start with "b" is not a blob URL. */
  lemma NotBlobUrl(url: string)
    requires |url| > 0 && url[0] != 'b'
    ensures !IsBlobUrl(url)
  {
  }

  lemma InitialLibraryWellFormed()
    ensures WellFormed(InitialLibrary)
    ensures forall k :: 0 <= k < |InitialLibrary.focus| ==> !IsSessionImage(InitialLibrary.focus[k])
    ensures forall k :: 0 <= k < |InitialLibrary.breaks| ==> !IsSessionImage(InitialLibrary.breaks[k])
  {
    forall c: Category, k | 0 <= k < |InitialLibrary.Get(c)|
      ensures !IsSessionImage(InitialLibrary.Get(c)[k])
    {
      var url := InitialLibrary.Get(c)[k].url;
      assert url[0] == Giphy[0] == 'h';
      NotBlobUrl(url);
    }
    assert InitialLibrary.Get(FocusCategory) == InitialLibrary.focus;
    assert InitialLibrary.Get(BreakCategory) == InitialLibrary.breaks;
  }

  // ---------------------------------------------------------------------------
  // Finding the current background

  /** The position of the first entry carrying `id`, if any. */
  function FindById(list: seq<Bg>, id: string): (r: Option<nat>)
    ensures r.Some? ==> r.value < |list| && list[r.value].id == id
    ensures r.Some? ==> forall k :: 0 <= k < r.value ==> list[k].id != id
    ensures r.None? ==> forall k :: 0 <= k < |list| ==> list[k].id != id
    decreases |list|
  {
    if |list| == 0 then None
    else if list[0].id == id then Some(0)
    else
      match FindById(list[1..], id)
      case Some(i) => Some(i + 1)
      case None => None
  }

  /**
   * `getCurrentBg`: in the mode's category, the first entry with the
   * selected id, else the first entry; nothing only when the list is empty.
   */
  function CurrentBg(lib: Library, sel: Selection, mode: Mode): (r: Option<Bg>)
    ensures var list := lib.Get(CategoryOf(mode));
      && (r.None? <==> |list| == 0)
      && (r.Some? ==> r.value in list)
      && (forall k :: 0 <= k < |list| && list[k].id == sel.Get(CategoryOf(mode)) ==> r.value.id == sel.Get(CategoryOf(mode)))
      && (forall k ::
            (0 <= k < |list| && list[k].id == sel.Get(CategoryOf(mode))
             && (forall j :: 0 <= j < k ==> list[j].id != sel.Get(CategoryOf(mode)))) ==> r == Some(list[k]))
      && ((forall k :: 0 <= k < |list| ==> list[k].id != sel.Get(CategoryOf(mode))) && |list| > 0 ==> r == Some(list[0]))
  {
    var c := CategoryOf(mode);
    var list := lib.Get(c);
    match FindById(list, sel.Get(c))
    case Some(i) => Some(list[i])
    case None => if |list| > 0 then Some(list[0]) else None
  }

  /**
   * `setBgForCategory`: the clicked background becomes the selection of the
   * current mode's category; the lists and the other category's selection
   * stay as they were.
   */
  function SelectBg(g: Gallery, mode: Mode, id: string): (r: Gallery)
    ensures r.library == g.library
    ensures r.selection.Get(CategoryOf(mode)) == id
    ensures r.selection.Get(Other(CategoryOf(mode))) == g.selection.Get(Other(CategoryOf(mode)))
  {
    g.(selection := g.selection.With(CategoryOf(mode), id))
  }

  /** Clicking an entry shows it, provided no earlier entry of the list shares its id. */
  lemma SelectShowsEntry(g: Gallery, mode: Mode, k: nat)
    requires k < |g.library.Get(CategoryOf(mode))|
    requires var list := g.library.Get(CategoryOf(mode));
      forall j :: 0 <= j < k ==> list[j].id != list[k].id
    ensures var r := SelectBg(g, mode, g.library.Get(CategoryOf(mode))[k].id);
      CurrentBg(r.library, r.selection, mode) == Some(g.library.Get(CategoryOf(mode))[k])
  {
    var list := g.library.Get(CategoryOf(mode));
    var r := SelectBg(g, mode, list[k].id);
    assert FindById(list, list[k].id) == Some(k);
  }

  // ---------------------------------------------------------------------------
  // Reading lists back from storage

  /** A background as `JSON.parse` gives it back; a missing or `null` field is `None`. */
  datatype StoredBg = StoredBg(
    id: Option<string>, name: Option<string>, url: Option<string>, kind: Option<string>, source: Option<string>)

  /** The stored `backgrounds` object; a category that is not an array reads as empty. */
  datatype StoredLibrary = StoredLibrary(focus: seq<StoredBg>, breaks: seq<StoredBg>) {
    function Get(c: Category): seq<StoredBg> {
      if c == FocusCategory then focus else breaks
    }
  }

  /**
   * The entries `sanitizeBackgroundsFromStorage` keeps: truthy id, name and
   * url, and not an image (by its stored type, exactly) with a blob URL.
   */
  predicate Keep(e: StoredBg)
    ensures Keep(e) ==> e.id.Some? && e.name.Some? && e.url.Some?
    ensures Keep(e) && e.kind == Some(ImageKind) ==> !StartsWith(e.url.value, "blob:")
    ensures !Truthy(e.id) || !Truthy(e.name) || !Truthy(e.url) ==> !Keep(e)
  {
    && Truthy(e.id) && Truthy(e.name) && Truthy(e.url)
    && !(e.kind == Some(ImageKind) && IsBlobUrl(e.url.value))
  }

  /** A kept entry as a background; a missing type becomes "image". */
  function Revive(e: StoredBg): (b: Bg)
    requires Keep(e)
    ensures ValidBg(b)
    ensures b.id == e.id.value && b.name == e.name.value && b.url == e.url.value && b.source == e.source
    ensures b.kind == (if Truthy(e.kind) then e.kind.value else ImageKind)
  {
    Bg(e.id.value, e.name.value, e.url.value, if Truthy(e.kind) then e.kind.value else ImageKind, e.source)
  }

  /** The kept entries of one stored list, revived, in their stored order. */
  function KeptEntries(list: seq<StoredBg>): (r: seq<Bg>)
    ensures |r| <= |list|
    ensures ValidList(r)
    ensures forall j :: 0 <= j < |list| && Keep(list[j]) ==> Revive(list[j]) in r
    ensures forall b :: b in r ==> exists j :: 0 <= j < |list| && Keep(list[j]) && Revive(list[j]) == b
    decreases |list|
  {
    if |list| == 0 then []
    else
      var rest := KeptEntries(list[1..]);
      assert forall j :: 1 <= j < |list| ==> list[j] == list[1..][j - 1];
      if Keep(list[0]) then [Revive(list[0])] + rest else rest
  }

  /** Keeping is done entry by entry: it distributes over concatenation, so order is preserved. */
  lemma {:induction false} KeptEntriesAppend(a: seq<StoredBg>, b: seq<StoredBg>)
    ensures KeptEntries(a + b) == KeptEntries(a) + KeptEntries(b)
    decreases |a|
  {
    if |a| > 0 {
      assert (a + b)[1..] == a[1..] + b;
      KeptEntriesAppend(a[1..], b);
    } else {
      assert a + b == b;
    }
  }

  /** One category of `sanitizeBackgroundsFromStorage`: the kept entries, or the built-in list if none. */
  function SanitizeList(list: seq<StoredBg>, fallback: seq<Bg>): seq<Bg> {
    var kept := KeptEntries(list);
    if |kept| == 0 then fallback else kept
  }

  /**
   * `sanitizeBackgroundsFromStorage`: both categories come out non-empty and
   * valid; a category keeps its surviving stored entries, or falls back to
   * the built-in list when none survive.
   */
  function SanitizeLibrary(stored: StoredLibrary): (r: Library)
    ensures WellFormed(r)
    ensures forall c: Category :: KeptEntries(stored.Get(c)) != [] ==> r.Get(c) == KeptEntries(stored.Get(c))
    ensures forall c: Category :: KeptEntries(stored.Get(c)) == [] ==> r.Get(c) == InitialLibrary.Get(c)
  {
    InitialLibraryWellFormed();
    Library(SanitizeList(stored.focus, InitialLibrary.focus), SanitizeList(stored.breaks, InitialLibrary.breaks))
  }

  /** An entry stored with type exactly "image" and a blob URL is dropped wherever it stands. */
  lemma DropsStoredSessionImage(a: seq<StoredBg>, e: StoredBg, b: seq<StoredBg>)
    requires e.kind == Some(ImageKind) && e.url.Some? && IsBlobUrl(e.url.value)
    ensures KeptEntries(a + [e] + b) == KeptEntries(a + b)
  {
    KeptEntriesAppend(a + [e], b);
    KeptEntriesAppend(a, [e]);
    KeptEntriesAppend(a, b);
  }

  /** The same entry with no stored type is kept, and becomes an image with a blob URL. */
  lemma KeepsUntypedBlob(id: string, name: string, url: BlobUrl, source: Option<string>)
    requires id != "" && name != ""
    ensures KeptEntries([StoredBg(Some(id), Some(name), Some(url), None, source)])
            == [Bg(id, name, url, ImageKind, source)]
    ensures IsSessionImage(Bg(id, name, url, ImageKind, source))
  {
  }

  /**
   * `selectedBgId` on load: the stored id when an entry of the sanitized list
   * carries it, otherwise the first entry's id.
   */
  function RestoreSelection(list: seq<Bg>, wanted: Option<string>): (id: string)
    requires |list| > 0
    ensures exists k :: 0 <= k < |list| && list[k].id == id
    ensures Truthy(wanted) && (exists k :: 0 <= k < |list| && list[k].id == wanted.value) ==> id == wanted.value
    ensures !Truthy(wanted) ==> id == list[0].id
    ensures wanted.Some? && (forall k :: 0 <= k < |list| ==> list[k].id != wanted.value) ==> id == list[0].id
  {
    var found := if wanted.Some? then FindById(list, wanted.value) else None;
    if found.Some? && list[found.value].id != "" then list[found.value].id else list[0].id
  }

  /** What is written back for one background (`JSON.stringify` keeps every field). */
  function StoreBg(b: Bg): StoredBg {
    StoredBg(Some(b.id), Some(b.name), Some(b.url), Some(b.kind), b.source)
  }

  function StoreList(list: seq<Bg>): (r: seq<StoredBg>)
    ensures |r| == |list|
    ensures forall k :: 0 <= k < |list| ==> r[k] == StoreBg(list[k])
  {
    seq(|list|, k requires 0 <= k < |list| => StoreBg(list[k]))
  }

  function StoreLibrary(lib: Library): StoredLibrary {
    StoredLibrary(StoreList(lib.focus), StoreList(lib.breaks))
  }

  /** A valid background that is not a session image is kept and revived as itself. */
  lemma StoreRevive(b: Bg)
    requires ValidBg(b) && !IsSessionImage(b)
    ensures Keep(StoreBg(b)) && Revive(StoreBg(b)) == b
  {
  }

  /** A list of valid backgrounds, none of them a session image, reads back unchanged. */
  lemma {:induction false} ReloadList(list: seq<Bg>)
    requires ValidList(list)
    requires forall k :: 0 <= k < |list| ==> !IsSessionImage(list[k])
    ensures KeptEntries(StoreList(list)) == list
    decreases |list|
  {
    if |list| > 0 {
      var stored := StoreList(list);
      assert stored[1..] == StoreList(list[1..]);
      ReloadList(list[1..]);
      StoreRevive(list[0]);
      assert list == [list[0]] + list[1..];
    }
  }

  /** A session image in a list read back is never kept. */
  lemma {:induction false} ReloadDropsSessionImages(list: seq<Bg>)
    requires ValidList(list)
    ensures forall b :: b in KeptEntries(StoreList(list)) ==> !IsSessionImage(b)
  {
    var stored := StoreList(list);
    forall b | b in KeptEntries(stored)
      ensures !IsSessionImage(b)
    {
      var j :| 0 <= j < |stored| && Keep(stored[j]) && Revive(stored[j]) == b;
      assert stored[j] == StoreBg(list[j]);
    }
  }

  // ---------------------------------------------------------------------------
  // Editing the lists

  /** Why a form was refused (each shows its own message; `NothingSelected` shows none). */
  datatype FormError =
    | NameMissing
    | LinkMissing
    | LinkInvalid
    | FileMissing
    | FileNeededToLeaveYouTube
    | LastInCategory
    | NothingSelected

  datatype Outcome<T> = Applied(value: T) | Rejected(error: FormError)

  /** The "add atmosphere" form. `file` is the object URL of the chosen file. */
  datatype AddForm = AddForm(name: string, category: Category, file: Option<BlobUrl>, kind: string, youtubeLink: string)

  /** The background `handleAddAtmosphere` would append, or why the form is refused. */
  function NewEntry(form: AddForm, id: UserId, parse: UrlParser): (r: Outcome<Bg>)
    ensures r.Applied? ==> ValidBg(r.value) && r.value.id == id && r.value.name == Trim(form.name)
  {
    var name := Trim(form.name);
    if name == "" then Rejected(NameMissing)
    else if form.kind == YouTubeKind then
      if Trim(form.youtubeLink) == "" then Rejected(LinkMissing)
      else
        match EmbedLink(parse, form.youtubeLink)
        case None => Rejected(LinkInvalid)
        case Some(embed) => Applied(Bg(id, name, embed, YouTubeKind, Some(form.youtubeLink)))
    else
      match form.file
      case None => Rejected(FileMissing)
      case Some(url) => Applied(Bg(id, name, url, ImageKind, None))
  }

  /**
   * `handleAddAtmosphere`. Refused without a name, and then without a usable
   * YouTube link (YouTube) or a file (anything else). Otherwise exactly one
   * entry is appended to the chosen category and selected there; the other
   * category and its selection are untouched, and the form is cleared but
   * keeps its category and type.
   */
  function AddAtmosphere(g: Gallery, form: AddForm, id: UserId, parse: UrlParser): (r: Outcome<(Gallery, AddForm)>)
    ensures r.Rejected? <==>
      || Trim(form.name) == ""
      || (form.kind == YouTubeKind && (Trim(form.youtubeLink) == "" || EmbedLink(parse, form.youtubeLink).None?))
      || (form.kind != YouTubeKind && form.file.None?)
    ensures r.Rejected? && Trim(form.name) == "" ==> r.error == NameMissing
    ensures r.Applied? ==>
      var (g', form') := r.value;
      var c := form.category;
      && |g'.library.Get(c)| == |g.library.Get(c)| + 1
      && g'.library.Get(c)[..|g.library.Get(c)|] == g.library.Get(c)
      && g'.library.Get(Other(c)) == g.library.Get(Other(c))
      && g'.selection.Get(c) == id && g'.selection.Get(Other(c)) == g.selection.Get(Other(c))
      && form' == form.(name := "", file := None, youtubeLink := "")
    ensures r.Applied? ==>
      var added := r.value.0.library.Get(form.category)[|g.library.Get(form.category)|];
      && ValidBg(added) && added.id == id && added.name == Trim(form.name)
      && (form.kind == YouTubeKind ==>
            && added.kind == YouTubeKind && Some(added.url) == EmbedLink(parse, form.youtubeLink)
            && added.source == Some(form.youtubeLink))
      && (form.kind != YouTubeKind ==>
            added.kind == ImageKind && Some(added.url) == form.file && added.source == None)
  {
    match NewEntry(form, id, parse)
    case Rejected(e) => Rejected(e)
    case Applied(entry) =>
      var c := form.category;
      var list := g.library.Get(c) + [entry];
      assert list[..|g.library.Get(c)|] == g.library.Get(c);
      Applied((Gallery(g.library.With(c, list), g.selection.With(c, id)),
               form.(name := "", file := None, youtubeLink := "")))
  }

  /** The edit form of the current background. `file` is the object URL of a newly chosen file. */
  datatype EditForm = EditForm(name: string, file: Option<BlobUrl>, kind: string, youtubeLink: string)

  /** Every entry carrying `id` replaced by `b`, the others left in place. */
  function ReplaceById(list: seq<Bg>, id: string, b: Bg): (r: seq<Bg>)
    ensures |r| == |list|
    ensures forall k :: 0 <= k < |list| ==> r[k] == (if list[k].id == id then b else list[k])
  {
    seq(|list|, k requires 0 <= k < |list| => if list[k].id == id then b else list[k])
  }

  /**
   * When `handleUpdateCurrent` refuses an edit: a YouTube edit without a
   * link or with a link that gives no embed, or leaving YouTube without a
   * new file.
   */
  predicate EditRefused(current: Bg, form: EditForm, parse: UrlParser) {
    || (form.kind == YouTubeKind && (Trim(form.youtubeLink) == "" || EmbedLink(parse, form.youtubeLink).None?))
    || (form.kind != YouTubeKind && current.kind == YouTubeKind && form.file.None?)
  }

  /**
   * `b` is `current` as an accepted edit rewrites it: same id; the trimmed
   * new name, or the old one if blank; a YouTube edit takes the embed URL,
   * type "youtube" and the typed link as source; any other edit becomes an
   * image with the new file or the old URL, and no source.
   */
  predicate RewrittenAs(b: Bg, current: Bg, form: EditForm, parse: UrlParser) {
    && b.id == current.id
    && b.name == (if Trim(form.name) != "" then Trim(form.name) else current.name)
    && (form.kind == YouTubeKind ==>
          && b.kind == YouTubeKind && Some(b.url) == EmbedLink(parse, form.youtubeLink)
          && b.source == Some(form.youtubeLink))
    && (form.kind != YouTubeKind ==>
          && b.kind == ImageKind && b.source == None
          && b.url == (if form.file.Some? then form.file.value else current.url))
  }

  /** The background that replaces `current`, or why the edit is refused. */
  function EditedEntry(current: Bg, form: EditForm, parse: UrlParser): (r: Outcome<Bg>)
    ensures r.Rejected? <==> EditRefused(current, form, parse)
    ensures r.Applied? ==> RewrittenAs(r.value, current, form, parse)
    ensures r.Applied? && ValidBg(current) ==> ValidBg(r.value)
  {
    var trimmed := Trim(form.name);
    var name := if trimmed != "" then trimmed else current.name;
    if form.kind == YouTubeKind then
      if Trim(form.youtubeLink) == "" then Rejected(LinkMissing)
      else
        match EmbedLink(parse, form.youtubeLink)
        case None => Rejected(LinkInvalid)
        case Some(embed) => Applied(Bg(current.id, name, embed, YouTubeKind, Some(form.youtubeLink)))
    else if current.kind == YouTubeKind && form.file.None? then Rejected(FileNeededToLeaveYouTube)
    else
      var url := if form.file.Some? then form.file.value else current.url;
      Applied(Bg(current.id, name, url, ImageKind, None))
  }

  /**
   * `handleUpdateCurrent`: every entry of the mode's category that carries
   * the current background's id is rewritten in place, the rest of that list,
   * its order, its ids, the other category and the selection stay as they
   * were. A blank name keeps the old one.
   */
  function UpdateCurrent(g: Gallery, mode: Mode, form: EditForm, parse: UrlParser): (r: Outcome<Gallery>)
    ensures CurrentBg(g.library, g.selection, mode).None? ==> r == Rejected(NothingSelected)
    ensures CurrentBg(g.library, g.selection, mode).Some? ==>
      (r.Rejected? <==> EditRefused(CurrentBg(g.library, g.selection, mode).value, form, parse))
    ensures r.Applied? ==>
      var c := CategoryOf(mode);
      var before := g.library.Get(c);
      var after := r.value.library.Get(c);
      var current := CurrentBg(g.library, g.selection, mode).value;
      && r.value.selection == g.selection
      && r.value.library.Get(Other(c)) == g.library.Get(Other(c))
      && |after| == |before|
      && (forall k :: 0 <= k < |before| && before[k].id != current.id ==> after[k] == before[k])
      && (forall k :: 0 <= k < |before| && before[k].id == current.id ==> RewrittenAs(after[k], current, form, parse))
  {
    var c := CategoryOf(mode);
    match CurrentBg(g.library, g.selection, mode)
    case None => Rejected(NothingSelected)
    case Some(current) =>
      match EditedEntry(current, form, parse)
      case Rejected(e) => Rejected(e)
      case Applied(b) =>
        var before := g.library.Get(c);
        var after := ReplaceById(before, current.id, b);
        var lib := g.library.With(c, after);
        assert lib.Get(c) == after;
        assert forall k :: 0 <= k < |before| && before[k].id == current.id ==> after[k] == b;
        Applied(g.(library := lib))
  }

  /** `list[k]` is the first entry of `list` whose id is not `id`. */
  predicate FirstKept(list: seq<Bg>, id: string, k: int) {
    0 <= k < |list| && list[k].id != id && forall j :: 0 <= j < k ==> list[j].id == id
  }

  /** The entries not carrying `id`, in their order. */
  function RemoveById(list: seq<Bg>, id: string): (r: seq<Bg>)
    ensures |r| <= |list|
    ensures forall k :: 0 <= k < |r| ==> r[k].id != id && r[k] in list
    ensures forall k :: 0 <= k < |list| && list[k].id != id ==> list[k] in r
    ensures r == [] <==> forall k :: 0 <= k < |list| ==> list[k].id == id
    ensures forall k :: FirstKept(list, id, k) ==> |r| > 0 && r[0] == list[k]
    decreases |list|
  {
    if |list| == 0 then []
    else
      var rest := RemoveById(list[1..], id);
      assert forall k :: 1 <= k < |list| ==> list[k] == list[1..][k - 1];
      if list[0].id == id then
        assert forall k :: FirstKept(list, id, k) ==> k >= 1 && FirstKept(list[1..], id, k - 1);
        rest
      else
        assert forall k :: FirstKept(list, id, k) ==> k == 0;
        [list[0]] + rest
  }

  /** The filter works entry by entry, so it keeps order and multiplicity. */
  lemma {:induction false} RemoveByIdAppend(a: seq<Bg>, b: seq<Bg>, id: string)
    ensures RemoveById(a + b, id) == RemoveById(a, id) + RemoveById(b, id)
    decreases |a|
  {
    if |a| > 0 {
      assert (a + b)[1..] == a[1..] + b;
      RemoveByIdAppend(a[1..], b, id);
    } else {
      assert a + b == b;
    }
  }

  /**
   * `handleDeleteCurrent`: refused, changing nothing, when no other entry of
   * the category would remain; otherwise every entry with the current id is
   * removed, the first remaining entry is selected, and the other category
   * and its selection are untouched.
   */
  function DeleteCurrent(g: Gallery, mode: Mode): (r: Outcome<Gallery>)
    ensures CurrentBg(g.library, g.selection, mode).None? ==> r == Rejected(NothingSelected)
    ensures CurrentBg(g.library, g.selection, mode).Some? ==>
      var c := CategoryOf(mode);
      var current := CurrentBg(g.library, g.selection, mode).value;
      && (r == Rejected(LastInCategory) <==>
            forall k :: 0 <= k < |g.library.Get(c)| ==> g.library.Get(c)[k].id == current.id)
      && (r.Rejected? <==>
            forall k :: 0 <= k < |g.library.Get(c)| ==> g.library.Get(c)[k].id == current.id)
      && (r.Applied? ==>
            var after := r.value.library.Get(c);
            && after == RemoveById(g.library.Get(c), current.id)
            && |after| > 0
            && (forall k :: 0 <= k < |after| ==> after[k].id != current.id && after[k] in g.library.Get(c))
            && (forall b :: b in g.library.Get(c) && b.id != current.id ==> b in after)
            && r.value.selection.Get(c) == after[0].id
            && (forall k :: FirstKept(g.library.Get(c), current.id, k) ==>
                  r.value.selection.Get(c) == g.library.Get(c)[k].id)
            && r.value.library.Get(Other(c)) == g.library.Get(Other(c))
            && r.value.selection.Get(Other(c)) == g.selection.Get(Other(c)))
  {
    var c := CategoryOf(mode);
    match CurrentBg(g.library, g.selection, mode)
    case None => Rejected(NothingSelected)
    case Some(current) =>
      var remaining := RemoveById(g.library.Get(c), current.id);
      if |remaining| < 1 then Rejected(LastInCategory)
      else Applied(Gallery(g.library.With(c, remaining), g.selection.With(c, remaining[0].id)))
  }

  // ---------------------------------------------------------------------------
  // The manager never leaves a category empty or an entry incomplete

  lemma AddKeepsWellFormed(g: Gallery, form: AddForm, id: UserId, parse: UrlParser)
    requires WellFormed(g.library)
    ensures AddAtmosphere(g, form, id, parse).Applied? ==> WellFormed(AddAtmosphere(g, form, id, parse).value.0.library)
  {
    var r := AddAtmosphere(g, form, id, parse);
    if r.Applied? {
      var c := form.category;
      var lib := r.value.0.library;
      var added := lib.Get(c)[|g.library.Get(c)|];
      assert lib.Get(c) == g.library.Get(c) + [added];
      assert ValidList(lib.Get(c));
      assert c == FocusCategory || c == BreakCategory;
    }
  }

  lemma UpdateKeepsWellFormed(g: Gallery, mode: Mode, form: EditForm, parse: UrlParser)
    requires WellFormed(g.library)
    ensures UpdateCurrent(g, mode, form, parse).Applied? ==> WellFormed(UpdateCurrent(g, mode, form, parse).value.library)
  {
    var c := CategoryOf(mode);
    var r := UpdateCurrent(g, mode, form, parse);
    if r.Applied? {
      var current := CurrentBg(g.library, g.selection, mode).value;
      assert ValidBg(current);
      var b := EditedEntry(current, form, parse).value;
      var after := ReplaceById(g.library.Get(c), current.id, b);
      assert r.value.library == g.library.With(c, after);
      assert ValidList(after);
      assert r.value.library.Get(c) == after && r.value.library.Get(Other(c)) == g.library.Get(Other(c));
      assert c == FocusCategory || c == BreakCategory;
    }
  }

  lemma DeleteKeepsWellFormed(g: Gallery, mode: Mode)
    requires WellFormed(g.library)
    ensures DeleteCurrent(g, mode).Applied? ==> WellFormed(DeleteCurrent(g, mode).value.library)
  {
  }

  /** A freshly added background becomes the one shown in every mode of its category. */
  lemma AddShowsNewEntry(g: Gallery, form: AddForm, id: UserId, parse: UrlParser, mode: Mode)
    requires CategoryOf(mode) == form.category
    requires forall k :: 0 <= k < |g.library.Get(form.category)| ==> g.library.Get(form.category)[k].id != id
    requires AddAtmosphere(g, form, id, parse).Applied?
    ensures var g' := AddAtmosphere(g, form, id, parse).value.0;
      CurrentBg(g'.library, g'.selection, mode)
        == Some(g'.library.Get(form.category)[|g.library.Get(form.category)|])
  {
  }
}

=== FILE: duration.dfy ===
/**
 * Timer modes and the normalisation of user-supplied durations
 * (`MODES`, `clampMinutes` and `getModeSeconds` in src/App.jsx).
 */
module Duration {
  import opened Optional

  /** The three timer phases. */
  datatype Mode = Focus | ShortBreak | LongBreak

  /** Which background list a mode shows: focus has its own, both breaks share one. */
  datatype Category = FocusCategory | BreakCategory

  function CategoryOf(m: Mode): Category {
    if m == Focus then FocusCategory else BreakCategory
  }

  /** The built-in length of each mode in seconds (`MODES[mode].time`). */
  function DefaultSeconds(m: Mode): nat {
    match m
    case Focus => 25 * 60
    case ShortBreak => 5 * 60
    case LongBreak => 15 * 60
  }

  /** The key under which a mode is stored and looked up. */
  function ModeKey(m: Mode): string {
    match m
    case Focus => "focus"
    case ShortBreak => "shortBreak"
    case LongBreak => "longBreak"
  }

  /** `MODES[key]` as a membership test: the mode whose key is `key`, if any. */
  function ModeFromKey(key: string): (r: Option<Mode>)
    ensures r.None? ==> forall m: Mode :: ModeKey(m) != key
    ensures r.Some? ==> ModeKey(r.value) == key
  {
    if key == "focus" then Some(Focus)
    else if key == "shortBreak" then Some(ShortBreak)
    else if key == "longBreak" then Some(LongBreak)
    else None
  }

  /** Reading back a mode's key gives the mode. */
  lemma ModeKeyRoundTrip(m: Mode)
    ensures ModeFromKey(ModeKey(m)) == Some(m)
  {
  }

  /** The outcome of JavaScript's `Number(value)` coercion. */
  datatype Num = NaN | Finite(x: real) | PosInf | NegInf

  /** `Math.round` on a finite number: the nearest integer, halves rounded up. */
  function RoundHalfUp(x: real): (n: int)
    ensures n as real - 0.5 <= x < n as real + 0.5
  {
    (x + 0.5).Floor
  }

  /**
   * `clampMinutes`: `NaN` becomes 1; anything else is rounded and clamped
   * into [1, 180], so +Infinity becomes 180 and -Infinity becomes 1.
   */
  function ClampMinutes(v: Num): (m: int)
    ensures 1 <= m <= 180
    ensures v.NaN? || v.NegInf? ==> m == 1
    ensures v.PosInf? ==> m == 180
    ensures v.Finite? && v.x < 1.5 ==> m == 1
    ensures v.Finite? && v.x >= 179.5 ==> m == 180
    ensures v.Finite? && 0.5 <= v.x < 180.5 ==> m as real - 0.5 <= v.x < m as real + 0.5
  {
    match v
    case NaN => 1
    case PosInf => 180
    case NegInf => 1
    case Finite(x) =>
      var n := RoundHalfUp(x);
      if n < 1 then 1 else if n > 180 then 180 else n
  }

  /** A clamped duration is a fixed point of the clamp. */
  lemma ClampIdempotent(v: Num)
    ensures ClampMinutes(Finite(ClampMinutes(v) as real)) == ClampMinutes(v)
  {
  }

  /** One stored duration per mode, as `Number()` reads it. */
  datatype Durations = Durations(focus: Num, shortBreak: Num, longBreak: Num) {

    function Get(m: Mode): Num {
      match m
      case Focus => focus
      case ShortBreak => shortBreak
      case LongBreak => longBreak
    }

    /** `{ ...this, [m]: v }`. */
    function With(m: Mode, v: Num): (d: Durations)
      ensures d.Get(m) == v
      ensures forall other: Mode :: other != m ==> d.Get(other) == Get(other)
    {
      match m
      case Focus => this.(focus := v)
      case ShortBreak => this.(shortBreak := v)
      case LongBreak => this.(longBreak := v)
    }
  }

  /** The initial 25 / 5 / 15 minutes. */
  const DefaultDurations := Durations(Finite(25.0), Finite(5.0), Finite(15.0))

  /**
   * `getModeSeconds`: whatever the stored value, a whole number of minutes
   * between 1 and 180, in seconds.
   */
  function ModeSeconds(times: Durations, m: Mode): (s: int)
    ensures s % 60 == 0 && 60 <= s <= 10800
    ensures s / 60 == ClampMinutes(times.Get(m))
  {
    ClampMinutes(times.Get(m)) * 60
  }

  /** The defaults give back the built-in lengths. */
  lemma DefaultDurationsMatchModes(m: Mode)
    ensures ModeSeconds(DefaultDurations, m) == DefaultSeconds(m)
  {
  }

  /** The `sanitized` record of the duration form: every mode's value clamped. */
  function ClampAll(d: Durations): (c: Durations)
    ensures forall m: Mode :: c.Get(m) == Finite(ClampMinutes(d.Get(m)) as real)
  {
    Durations(
      Finite(ClampMinutes(d.focus) as real),
      Finite(ClampMinutes(d.shortBreak) as real),
      Finite(ClampMinutes(d.longBreak) as real))
  }

  /** Clamping twice changes nothing, and does not change the seconds of any mode. */
  lemma {:induction false} ClampAllIdempotent(d: Durations)
    ensures ClampAll(ClampAll(d)) == ClampAll(d)
    ensures forall m: Mode :: ModeSeconds(ClampAll(d), m) == ModeSeconds(d, m)
  {
    ClampIdempotent(d.focus);
    ClampIdempotent(d.shortBreak);
    ClampIdempotent(d.longBreak);
    forall m: Mode
      ensures ModeSeconds(ClampAll(d), m) == ModeSeconds(d, m)
    {
      ClampIdempotent(d.Get(m));
    }
  }
}

=== FILE: js_text.dfy ===
/**
 * The few JavaScript string operations the timer and the atmosphere manager
 * rely on: `trim`, `startsWith`, `split`, `Number.prototype.toString` on
 * non-negative integers and `padStart`.
 */
module JsText {

  /** The characters `String.prototype.trim` strips: ECMAScript white space and line terminators. */
  predicate IsJsSpace(c: char) {
    var n := c as int;
    || n == 0x09 || n == 0x0A || n == 0x0B || n == 0x0C || n == 0x0D || n == 0x20
    || n == 0xA0 || n == 0x1680 || (0x2000 <= n <= 0x200A) || n == 0x2028 || n == 0x2029
    || n == 0x202F || n == 0x205F || n == 0x3000 || n == 0xFEFF
  }

  /** Every character of `s` is white space (the empty string included). */
  predicate IsBlank(s: string) {
    forall k :: 0 <= k < |s| ==> IsJsSpace(s[k])
  }

  /** Drops leading white space: the result is a suffix, and what was dropped is blank. */
  function TrimStart(s: string): (r: string)
    ensures |r| <= |s| && r == s[|s| - |r|..]
    ensures IsBlank(s[..|s| - |r|])
    ensures |r| > 0 ==> !IsJsSpace(r[0])
    decreases |s|
  {
    if |s| > 0 && IsJsSpace(s[0]) then
      var r := TrimStart(s[1..]);
      assert s[..|s| - |r|] == [s[0]] + s[1..][..|s| - 1 - |r|];
      r
    else
      s
  }

  /** Drops trailing white space: the result is a prefix, and what was dropped is blank. */
  function TrimEnd(s: string): (r: string)
    ensures |r| <= |s| && r == s[..|r|]
    ensures IsBlank(s[|r|..])
    ensures |r| > 0 ==> !IsJsSpace(r[|r| - 1])
    decreases |s|
  {
    if |s| > 0 && IsJsSpace(s[|s| - 1]) then
      var r := TrimEnd(s[..|s| - 1]);
      assert s[|r|..] == s[..|s| - 1][|r|..] + [s[|s| - 1]];
      r
    else
      s
  }

  /**
   * `s.trim()`: a middle slice of `s` with only white space cut off either
   * side, empty exactly when `s` is blank, and otherwise with neither end
   * white space.
   */
  function Trim(s: string): (r: string)
    ensures exists i, j :: 0 <= i <= j <= |s| && r == s[i..j] && IsBlank(s[..i]) && IsBlank(s[j..])
    ensures r == [] <==> IsBlank(s)
    ensures |r| > 0 ==> !IsJsSpace(r[0]) && !IsJsSpace(r[|r| - 1])
  {
    var t := TrimStart(s);
    var r := TrimEnd(t);
    TrimSlice(s, |s| - |t|, |s| - |t| + |r|);
    assert r == [] ==> t == t[|r|..];
    r
  }

  /** Cutting a blank prefix and then a blank suffix leaves a middle slice. */
  lemma TrimSlice(s: string, i: nat, j: nat)
    requires i <= j <= |s|
    requires IsBlank(s[..i]) && IsBlank(s[i..][j - i..])
    ensures s[i..][..j - i] == s[i..j] && s[i..][j - i..] == s[j..]
    ensures IsBlank(s[..i]) && IsBlank(s[j..])
    ensures s == s[..i] + s[i..]
  {
  }

  /** `s.startsWith(p)`. */
  predicate StartsWith(s: string, p: string) {
    |p| <= |s| && s[..|p|] == p
  }

  /** `s.endsWith(p)`. */
  predicate EndsWith(s: string, p: string) {
    |p| <= |s| && s[|s| - |p|..] == p
  }

  /** Glues `parts` back together with one `sep` between neighbours (`parts.join(sep)`). */
  function Join(parts: seq<string>, sep: char): string
    decreases |parts|
  {
    if |parts| == 0 then ""
    else if |parts| == 1 then parts[0]
    else parts[0] + [sep] + Join(parts[1..], sep)
  }

  /**
   * `s.split(sep)` for a one-character separator: the maximal separator-free
   * pieces of `s`, at least one, which `Join` puts back together.
   */
  function Split(s: string, sep: char): (parts: seq<string>)
    ensures |parts| >= 1
    ensures forall k :: 0 <= k < |parts| ==> sep !in parts[k]
    ensures Join(parts, sep) == s
    decreases |s|
  {
    if |s| == 0 then [""]
    else
      var rest := Split(s[1..], sep);
      if s[0] == sep then
        assert ([""] + rest)[1..] == rest;
        [""] + rest
      else
        var parts := [[s[0]] + rest[0]] + rest[1..];
        assert parts[1..] == rest[1..];
        assert s == [s[0]] + s[1..];
        parts
  }

  /** A separator-free prefix joins onto the first piece of what follows it. */
  lemma {:induction false} SplitPrefix(a: string, rest: string, sep: char)
    requires sep !in a
    ensures Split(a + rest, sep) == [a + Split(rest, sep)[0]] + Split(rest, sep)[1..]
    decreases |a|
  {
    var r := Split(rest, sep);
    if |a| > 0 {
      var s := a + rest;
      assert s[1..] == a[1..] + rest;
      SplitPrefix(a[1..], rest, sep);
      var inner := Split(s[1..], sep);
      assert inner[0] == a[1..] + r[0] && inner[1..] == r[1..];
      assert [s[0]] + inner[0] == a + r[0];
    } else {
      assert a + rest == rest;
      assert a + r[0] == r[0];
      assert r == [r[0]] + r[1..];
    }
  }

  /** `Split` undoes `Join` when no piece contains the separator. */
  lemma {:induction false} SplitJoin(parts: seq<string>, sep: char)
    requires |parts| >= 1
    requires forall k :: 0 <= k < |parts| ==> sep !in parts[k]
    ensures Split(Join(parts, sep), sep) == parts
    decreases |parts|
  {
    if |parts| == 1 {
      SplitPrefix(parts[0], "", sep);
      assert parts[0] + "" == parts[0];
    } else {
      var tail := Join(parts[1..], sep);
      SplitJoin(parts[1..], sep);
      assert parts[0] + [sep] + tail == parts[0] + ([sep] + tail);
      SplitPrefix(parts[0], [sep] + tail, sep);
      assert ([sep] + tail)[1..] == tail;
      assert Split([sep] + tail, sep) == [""] + Split(tail, sep);
      assert parts[0] + "" == parts[0];
      assert parts == [parts[0]] + parts[1..];
    }
  }

  // ---------------------------------------------------------------------------
  // Decimal digits

  predicate IsDigit(c: char) {
    '0' <= c <= '9'
  }

  predicate AllDigits(s: string) {
    forall k :: 0 <= k < |s| ==> IsDigit(s[k])
  }

  /** A non-empty run of decimal digits. */
  predicate IsDecimal(s: string) {
    |s| >= 1 && AllDigits(s)
  }

  function DigitValue(c: char): nat
    requires IsDigit(c)
  {
    c as int - '0' as int
  }

  function DigitChar(d: nat): (c: char)
    requires d < 10
    ensures IsDigit(c) && DigitValue(c) == d
  {
    ('0' as int + d) as char
  }

  /** The number a run of digits denotes (leading zeros allowed; the empty run denotes 0). */
  function DecimalValue(s: string): nat
    requires AllDigits(s)
    decreases |s|
  {
    if |s| == 0 then 0 else DecimalValue(s[..|s| - 1]) * 10 + DigitValue(s[|s| - 1])
  }

  /**
   * `n.toString()` for a non-negative integer: shortest decimal form, so no
   * leading zero, and one, two or three digits below 10, 100 and 1000.
   */
  function NatToString(n: nat): (r: string)
    ensures IsDecimal(r)
    ensures DecimalValue(r) == n
    ensures |r| > 1 ==> r[0] != '0'
    ensures n < 10 ==> |r| == 1
    ensures 10 <= n < 100 ==> |r| == 2
    ensures 100 <= n < 1000 ==> |r| == 3
    decreases n
  {
    if n < 10 then [DigitChar(n)]
    else
      var r := NatToString(n / 10) + [DigitChar(n % 10)];
      assert r[..|r| - 1] == NatToString(n / 10);
      r
  }

  /** `s.padStart(width, fill)`: `s` itself when long enough, otherwise `fill`s then `s`. */
  function PadStart(s: string, width: nat, fill: char): (r: string)
    ensures |r| == if |s| >= width then |s| else width
    ensures r[|r| - |s|..] == s
    ensures forall k :: 0 <= k < |r| - |s| ==> r[k] == fill
  {
    if |s| >= width then s else seq(width - |s|, _ => fill) + s
  }

  /** A run of zeros denotes 0. */
  lemma {:induction false} ZerosValue(z: string)
    requires forall k :: 0 <= k < |z| ==> z[k] == '0'
    ensures AllDigits(z) && DecimalValue(z) == 0
    decreases |z|
  {
    if |z| > 0 {
      ZerosValue(z[..|z| - 1]);
    }
  }

  /** Leading zeros do not change the value of a run of digits. */
  lemma {:induction false} LeadingZerosValue(z: string, s: string)
    requires forall k :: 0 <= k < |z| ==> z[k] == '0'
    requires AllDigits(s)
    ensures AllDigits(z + s) && DecimalValue(z + s) == DecimalValue(s)
    decreases |s|
  {
    if |s| == 0 {
      assert z + s == z;
      ZerosValue(z);
    } else {
      var s' := s[..|s| - 1];
      LeadingZerosValue(z, s');
      assert (z + s)[..|z + s| - 1] == z + s';
    }
  }
}

=== FILE: optional.dfy ===
/** Absent-or-present values; `None` stands for JavaScript's `null` and `undefined`. */
module Optional {

  datatype Option<+T> = None | Some(value: T) {

    /** The wrapped value, or `default` when absent (the `?? default` idiom). */
    function GetOr(default: T): T {
      match this
      case Some(v) => v
      case None => default
    }
  }

  /** JavaScript truthiness of an optional string: present and not empty. */
  predicate Truthy(o: Option<string>) {
    o.Some? && o.value != ""
  }

  /** `searchParams.get(key)` and friends: the value stored under `key`, or `None`. */
  function Lookup<K, V>(m: map<K, V>, key: K): (r: Option<V>)
    ensures r.Some? <==> key in m
    ensures r.Some? ==> r.value == m[key]
  {
    if key in m then Some(m[key]) else None
  }
}

=== FILE: persistence.dfy ===
/**
 * Loading the saved settings at start-up and writing them back
 * (the two storage effects of src/App.jsx). Storage itself and JSON are
 * outside the model: loading starts from the already-parsed document, and
 * persisting produces the document that would be serialised.
 */
module Persistence {
  import opened Optional
  import opened JsText
  import opened Duration
  import opened YouTube
  import opened Atmosphere
  import opened Sound
  import Timer

  /** The whole modelled state of the component. */
  datatype App = App(timer: Timer.State, gallery: Gallery, mixer: Mixer)

  const InitialApp := App(Timer.Initial, InitialGallery, InitialMixer)

  /** The stored `selectedBgId` object. */
  datatype StoredSelection = StoredSelection(focus: Option<string>, breaks: Option<string>)

  /**
   * The parsed document under the storage key. Each field is `None` unless
   * the loader would accept it: truthy for `mode`, `customTimes` and
   * `backgrounds`, a boolean for the mute flags, a number for the volumes,
   * a string for `audioSource`.
   */
  datatype Document = Document(
    mode: Option<string>,
    customTimes: Option<Durations>,
    backgrounds: Option<StoredLibrary>,
    selectedBgId: Option<StoredSelection>,
    isYoutubeMuted: Option<bool>,
    bgVolume: Option<real>,
    audioVolume: Option<real>,
    audioMuted: Option<bool>,
    audioInput: Option<string>,
    audioSource: Option<string>,
    audioUrl: Option<string>)

  const EmptyDocument := Document(None, None, None, None, None, None, None, None, None, None, None)

  /** The timer after loading: saved durations (also shown in the form) and mode, then the sync effect. */
  function LoadTimer(d: Document): (t: Timer.State)
    ensures d.mode.Some? && ModeFromKey(d.mode.value).Some? ==> t.mode == ModeFromKey(d.mode.value).value
    ensures (d.mode.None? || ModeFromKey(d.mode.value).None?) ==> t.mode == Focus
    ensures t.customTimes == d.customTimes.GetOr(DefaultDurations) && t.draft == t.customTimes
    ensures !t.isActive && t.timeLeft == ModeSeconds(t.customTimes, t.mode)
    ensures t.quote == None && t.apiError == None
  {
    var times := d.customTimes.GetOr(DefaultDurations);
    var mode := if d.mode.Some? then ModeFromKey(d.mode.value).GetOr(Focus) else Focus;
    Timer.SyncEffect(Timer.Initial.(mode := mode, customTimes := times, draft := times))
  }

  /** The backgrounds after loading: sanitized lists, and selections restored against them. */
  function LoadGallery(d: Document): (g: Gallery)
    ensures d.backgrounds.None? ==> g == InitialGallery
    ensures d.backgrounds.Some? ==>
      var wanted := d.selectedBgId.GetOr(StoredSelection(None, None));
      && g.library == SanitizeLibrary(d.backgrounds.value)
      && g.selection.focus == RestoreSelection(g.library.focus, wanted.focus)
      && g.selection.breaks == RestoreSelection(g.library.breaks, wanted.breaks)
    ensures WellFormed(g.library)
    ensures Names(g.library.focus, g.selection.focus) && Names(g.library.breaks, g.selection.breaks)
  {
    InitialLibraryWellFormed();
    assert InitialLibrary.focus[0].id == "city" && InitialLibrary.breaks[0].id == "bus";
    match d.backgrounds
    case None => InitialGallery
    case Some(stored) =>
      var lib := SanitizeLibrary(stored);
      var wanted := d.selectedBgId.GetOr(StoredSelection(None, None));
      Gallery(lib, Selection(RestoreSelection(lib.focus, wanted.focus), RestoreSelection(lib.breaks, wanted.breaks)))
  }

  /** The stored music link is taken: a non-blank string that gives an embed. */
  predicate AcceptsMusic(d: Document, parse: UrlParser) {
    d.audioSource.Some? && Trim(d.audioSource.value) != "" && EmbedLink(parse, d.audioSource.value).Some?
  }

  /** The sound settings after loading; a music link is taken only if it embeds. */
  function LoadMixer(d: Document, parse: UrlParser): (m: Mixer)
    ensures m.youtubeMuted == d.isYoutubeMuted.GetOr(InitialMixer.youtubeMuted)
    ensures m.audioMuted == d.audioMuted.GetOr(InitialMixer.audioMuted)
    ensures m.bgVolume == d.bgVolume.GetOr(InitialMixer.bgVolume)
    ensures m.audioVolume == d.audioVolume.GetOr(InitialMixer.audioVolume)
    ensures AcceptsMusic(d, parse) ==>
      && m.audioSource == d.audioSource.value && m.audioInput == d.audioSource.value
      && Some(m.audioUrl) == EmbedLink(parse, d.audioSource.value)
    ensures !AcceptsMusic(d, parse) ==> m.audioSource == "" && m.audioInput == "" && m.audioUrl == ""
  {
    var m := InitialMixer.(
      youtubeMuted := d.isYoutubeMuted.GetOr(InitialMixer.youtubeMuted),
      bgVolume := d.bgVolume.GetOr(InitialMixer.bgVolume),
      audioVolume := d.audioVolume.GetOr(InitialMixer.audioVolume),
      audioMuted := d.audioMuted.GetOr(InitialMixer.audioMuted));
    if d.audioSource.Some? && Trim(d.audioSource.value) != "" then
      match EmbedLink(parse, d.audioSource.value)
      case Some(embed) =>
        m.(audioSource := d.audioSource.value, audioInput := d.audioSource.value, audioUrl := embed)
      case None => m
    else m
  }

  /**
   * Start-up. No document (nothing stored, or text that does not parse)
   * gives the defaults; otherwise every accepted field is applied and the
   * rest ignored. Whatever was stored, both background lists come out
   * non-empty and valid, the countdown is stopped at the full configured
   * length of the loaded mode, and the duration form shows the loaded durations.
   */
  function Load(doc: Option<Document>, parse: UrlParser): (r: App)
    ensures doc.None? ==> r == InitialApp
    ensures WellFormed(r.gallery.library)
    ensures !r.timer.isActive && r.timer.timeLeft == ModeSeconds(r.timer.customTimes, r.timer.mode)
    ensures r.timer.draft == r.timer.customTimes
    ensures Timer.Consistent(r.timer) && Timer.WithinDuration(r.timer)
    ensures r.timer.quote == None && r.timer.apiError == None
    ensures doc.Some? ==> r == App(LoadTimer(doc.value), LoadGallery(doc.value), LoadMixer(doc.value, parse))
  {
    InitialLibraryWellFormed();
    match doc
    case None => InitialApp
    case Some(d) => App(LoadTimer(d), LoadGallery(d), LoadMixer(d, parse))
  }

  /** The document written back on every change after loading. */
  function Persist(app: App): (d: Document)
    ensures d.mode.Some? && ModeFromKey(d.mode.value) == Some(app.timer.mode)
    ensures d.customTimes == Some(app.timer.customTimes)
    ensures d.backgrounds.Some? && forall c: Category :: |d.backgrounds.value.Get(c)| == |app.gallery.library.Get(c)|
    ensures forall c: Category, k :: 0 <= k < |app.gallery.library.Get(c)| ==>
      d.backgrounds.value.Get(c)[k] == StoreBg(app.gallery.library.Get(c)[k])
    ensures d.selectedBgId == Some(StoredSelection(Some(app.gallery.selection.focus), Some(app.gallery.selection.breaks)))
    ensures d.isYoutubeMuted == Some(app.mixer.youtubeMuted) && d.audioMuted == Some(app.mixer.audioMuted)
    ensures d.bgVolume == Some(app.mixer.bgVolume) && d.audioVolume == Some(app.mixer.audioVolume)
    ensures d.audioSource == Some(app.mixer.audioSource)
    ensures d.audioInput == Some(app.mixer.audioInput) && d.audioUrl == Some(app.mixer.audioUrl)
  {
    ModeKeyRoundTrip(app.timer.mode);
    var sel := app.gallery.selection;
    Document(
      Some(ModeKey(app.timer.mode)),
      Some(app.timer.customTimes),
      Some(StoreLibrary(app.gallery.library)),
      Some(StoredSelection(Some(sel.focus), Some(sel.breaks))),
      Some(app.mixer.youtubeMuted),
      Some(app.mixer.bgVolume),
      Some(app.mixer.audioVolume),
      Some(app.mixer.audioMuted),
      Some(app.mixer.audioInput),
      Some(app.mixer.audioSource),
      Some(app.mixer.audioUrl))
  }

  /** What a reload is meant to bring back. */
  datatype Settings = Settings(
    mode: Mode,
    customTimes: Durations,
    library: Library,
    selection: Selection,
    youtubeMuted: bool,
    audioMuted: bool,
    bgVolume: real,
    audioVolume: real,
    audioSource: string,
    audioUrl: string)

  function SettingsOf(app: App): Settings {
    Settings(
      app.timer.mode, app.timer.customTimes, app.gallery.library, app.gallery.selection,
      app.mixer.youtubeMuted, app.mixer.audioMuted, app.mixer.bgVolume, app.mixer.audioVolume,
      app.mixer.audioSource, app.mixer.audioUrl)
  }

  /** The selected id names an entry of the list. */
  predicate Names(list: seq<Bg>, id: string) {
    exists k :: 0 <= k < |list| && list[k].id == id
  }

  /**
   * The states a reload can reproduce: finite durations, well-formed lists
   * without session images, selections that name entries, and a music link
   * that is either unset or accepted together with its embed URL.
   */
  predicate Restorable(app: App, parse: UrlParser) {
    var lib := app.gallery.library;
    var m := app.mixer;
    && (forall md: Mode :: app.timer.customTimes.Get(md).Finite?)
    && WellFormed(lib)
    && (forall k :: 0 <= k < |lib.focus| ==> !IsSessionImage(lib.focus[k]))
    && (forall k :: 0 <= k < |lib.breaks| ==> !IsSessionImage(lib.breaks[k]))
    && Names(lib.focus, app.gallery.selection.focus)
    && Names(lib.breaks, app.gallery.selection.breaks)
    && ((m.audioSource == "" && m.audioUrl == "")
        || (Trim(m.audioSource) != "" && EmbedLink(parse, m.audioSource) == Some(m.audioUrl)))
  }

  /**
   * Persist, then load: the settings come back exactly, the form shows the
   * saved durations, and the countdown stands at the full length of the
   * saved mode.
   */
  lemma {:induction false} PersistLoadRoundTrip(app: App, parse: UrlParser)
    requires Restorable(app, parse)
    ensures var r := Load(Some(Persist(app)), parse);
      && SettingsOf(r) == SettingsOf(app)
      && r.timer.draft == app.timer.customTimes
      && r.timer.timeLeft == ModeSeconds(app.timer.customTimes, app.timer.mode)
  {
    var lib := app.gallery.library;
    var d := Persist(app);
    ModeKeyRoundTrip(app.timer.mode);
    ReloadList(lib.focus);
    ReloadList(lib.breaks);
    var lib' := SanitizeLibrary(StoreLibrary(lib));
    assert lib'.Get(FocusCategory) == lib.focus;
    assert lib'.Get(BreakCategory) == lib.breaks;
    assert lib' == lib;
    var r := Load(Some(d), parse);
    assert r.gallery.selection == app.gallery.selection;
    assert r.mixer.audioSource == app.mixer.audioSource;
  }

  /**
   * Whatever state was persisted, no uploaded image of an earlier page
   * survives the reload. (A document written by hand can still smuggle one
   * in without a type; see `KeepsUntypedBlob`.)
   */
  lemma {:induction false} ReloadForgetsSessionImages(app: App, parse: UrlParser, c: Category)
    requires ValidList(app.gallery.library.focus) && ValidList(app.gallery.library.breaks)
    ensures var lib := Load(Some(Persist(app)), parse).gallery.library;
      forall k :: 0 <= k < |lib.Get(c)| ==> !IsSessionImage(lib.Get(c)[k])
  {
    InitialLibraryWellFormed();
    ReloadDropsSessionImages(app.gallery.library.Get(c));
    var stored := StoreLibrary(app.gallery.library);
    assert stored.Get(c) == StoreList(app.gallery.library.Get(c));
  }

  /** A document with no accepted field loads as the defaults, like no document at all. */
  lemma EmptyDocumentLoadsDefaults(parse: UrlParser)
    ensures Load(Some(EmptyDocument), parse) == InitialApp
    ensures Load(None, parse) == InitialApp
  {
  }

  /**
   * Saving 25 / 10 / 15 minutes in short-break mode and reloading gives back
   * short-break mode, those durations, and a 10-minute countdown.
   */
  lemma ShortBreakExample(parse: UrlParser)
    ensures var saved := Timer.SaveDurations(
              Timer.SwitchMode(Timer.Initial.(draft := DefaultDurations.With(ShortBreak, Finite(10.0))), ShortBreak));
      var r := Load(Some(Persist(App(saved, InitialGallery, InitialMixer))), parse);
      && r.timer.mode == ShortBreak
      && r.timer.customTimes == Durations(Finite(25.0), Finite(10.0), Finite(15.0))
      && r.timer.timeLeft == 600
  {
    var edited := Timer.Initial.(draft := DefaultDurations.With(ShortBreak, Finite(10.0)));
    assert edited.draft == Durations(Finite(25.0), Finite(10.0), Finite(15.0));
    var switched := Timer.SwitchMode(edited, ShortBreak);
    var saved := Timer.SaveDurations(switched);
    assert saved.customTimes == ClampAll(switched.draft);
    assert saved.mode == ShortBreak;
    assert saved.customTimes == Durations(Finite(25.0), Finite(10.0), Finite(15.0));
    InitialLibraryWellFormed();
    assert Names(InitialLibrary.focus, "city") by { assert InitialLibrary.focus[0].id == "city"; }
    assert Names(InitialLibrary.breaks, "bus") by { assert InitialLibrary.breaks[0].id == "bus"; }
    var app := App(saved, InitialGallery, InitialMixer);
    assert Restorable(app, parse);
    PersistLoadRoundTrip(app, parse);
  }
}

=== FILE: sound.dfy ===
/**
 * The sound settings of src/App.jsx and the master mute button
 * (`handleToggleMasterMute`), which mutes or unmutes the background video
 * and the music together.
 */
module Sound {

  /**
   * Mute flags and volumes of the background video and the music, and the
   * music link as typed (`audioInput`), as accepted (`audioSource`) and as
   * an embed URL (`audioUrl`).
   */
  datatype Mixer = Mixer(
    youtubeMuted: bool,
    audioMuted: bool,
    bgVolume: real,
    audioVolume: real,
    audioInput: string,
    audioSource: string,
    audioUrl: string)

  const InitialMixer := Mixer(true, true, 40.0, 55.0, "", "", "")

  /** `masterMuted`: both sources are muted. */
  predicate MasterMuted(m: Mixer) {
    m.youtubeMuted && m.audioMuted
  }

  /**
   * The master mute button flips `masterMuted`. Muting leaves the volumes
   * alone; unmuting turns a zero background volume into 30 and a zero music
   * volume into 40 so that something is heard. The music link is untouched.
   */
  function ToggleMasterMute(m: Mixer): (r: Mixer)
    ensures MasterMuted(r) == !MasterMuted(m)
    ensures r.youtubeMuted == r.audioMuted
    ensures !MasterMuted(m) ==> r.bgVolume == m.bgVolume && r.audioVolume == m.audioVolume
    ensures MasterMuted(m) ==> r.bgVolume != 0.0 && r.audioVolume != 0.0
    ensures MasterMuted(m) ==> (r.bgVolume == 30.0 || r.bgVolume == m.bgVolume)
    ensures MasterMuted(m) ==> (r.audioVolume == 40.0 || r.audioVolume == m.audioVolume)
    ensures m.bgVolume != 0.0 ==> r.bgVolume == m.bgVolume
    ensures m.audioVolume != 0.0 ==> r.audioVolume == m.audioVolume
    ensures (r.audioInput, r.audioSource, r.audioUrl) == (m.audioInput, m.audioSource, m.audioUrl)
  {
    if !MasterMuted(m) then
      m.(youtubeMuted := true, audioMuted := true)
    else
      var safeBg := if m.bgVolume == 0.0 then 30.0 else m.bgVolume;
      var safeAudio := if m.audioVolume == 0.0 then 40.0 else m.audioVolume;
      m.(bgVolume := safeBg, audioVolume := safeAudio, youtubeMuted := false, audioMuted := false)
  }

  /**
   * Pressing the button twice restores the mixer when both sources were
   * audible or both muted, at non-zero volumes.
   */
  lemma ToggleTwiceRestores(m: Mixer)
    requires m.youtubeMuted == m.audioMuted
    requires m.bgVolume != 0.0 && m.audioVolume != 0.0
    ensures ToggleMasterMute(ToggleMasterMute(m)) == m
  {
  }

  /** With only one source muted, the button mutes both: the mixed state is not kept. */
  lemma ToggleFromMixedMutesBoth(m: Mixer)
    requires m.youtubeMuted != m.audioMuted
    ensures MasterMuted(ToggleMasterMute(m))
    ensures ToggleMasterMute(ToggleMasterMute(m)).youtubeMuted == false
    ensures ToggleMasterMute(ToggleMasterMute(m)) != m
  {
  }
}

=== FILE: time_format.dfy ===
/** The `MM:SS` rendering of the countdown (`formatTime` in src/App.jsx) and its decoder. */
module TimeFormat {
  import opened Optional
  import opened JsText

  /**
   * `n.toString().padStart(2, '0')`: a run of digits that still denotes `n`,
   * two long below 100 and three long from 100 to 999.
   */
  function Pad2(n: nat): (r: string)
    ensures IsDecimal(r) && |r| >= 2 && DecimalValue(r) == n
    ensures n < 100 ==> |r| == 2
    ensures 100 <= n < 1000 ==> |r| == 3
  {
    var d := NatToString(n);
    var r := PadStart(d, 2, '0');
    var z := r[..|r| - |d|];
    assert r == z + d;
    LeadingZerosValue(z, d);
    r
  }

  /**
   * `t` shows `m` minutes and `sec` seconds: a run of digits worth `m`, a
   * colon, then two digits worth `sec`; five characters below 100 minutes,
   * six from 100 to 999.
   */
  predicate ShowsTime(t: string, m: nat, sec: nat) {
    && |t| >= 5 && t[|t| - 3] == ':'
    && IsDecimal(t[|t| - 2..]) && DecimalValue(t[|t| - 2..]) == sec
    && IsDecimal(t[..|t| - 3]) && DecimalValue(t[..|t| - 3]) == m
    && (m < 100 ==> |t| == 5)
    && (100 <= m < 1000 ==> |t| == 6)
  }

  /** Two digit runs worth `m` and `sec`, the second two long, joined by a colon show `m:sec`. */
  lemma ColonJoinShows(a: string, b: string, m: nat, sec: nat)
    requires IsDecimal(a) && DecimalValue(a) == m && |a| >= 2
    requires m < 100 ==> |a| == 2
    requires 100 <= m < 1000 ==> |a| == 3
    requires IsDecimal(b) && |b| == 2 && DecimalValue(b) == sec
    ensures ShowsTime(a + ":" + b, m, sec)
  {
    var t := a + ":" + b;
    assert t[|t| - 2..] == b && t[..|t| - 3] == a;
  }

  /** `m` minutes and `sec < 60` seconds as `MM:SS`. */
  function Display(m: nat, sec: nat): (t: string)
    requires sec < 60
    ensures ShowsTime(t, m, sec)
  {
    ColonJoinShows(Pad2(m), Pad2(sec), m, sec);
    Pad2(m) + ":" + Pad2(sec)
  }

  /**
   * `formatTime(seconds)`: the minutes `seconds / 60`, padded to at least
   * two digits and never truncated, a colon, then the seconds
   * `seconds % 60` (below 60) as exactly two digits.
   */
  function FormatTime(seconds: nat): (t: string)
    ensures ShowsTime(t, seconds / 60, seconds % 60) && seconds % 60 < 60
  {
    Display(seconds / 60, seconds % 60)
  }

  /**
   * Reads a timer display back: exactly one colon, digits on both sides, and
   * two digits below 60 after it.
   */
  function ParseTime(t: string): Option<nat> {
    var parts := Split(t, ':');
    if |parts| == 2 && IsDecimal(parts[0]) && |parts[1]| == 2 && IsDecimal(parts[1])
       && DecimalValue(parts[1]) < 60
    then Some(DecimalValue(parts[0]) * 60 + DecimalValue(parts[1]))
    else None
  }

  /** No digit is a colon. */
  lemma DigitsHaveNoColon(s: string)
    requires AllDigits(s)
    ensures ':' !in s
  {
  }

  /** `ParseTime` reads `a:b` as `a` minutes and `b` seconds. */
  lemma ParseJoined(a: string, b: string, n: nat)
    requires IsDecimal(a) && IsDecimal(b) && |b| == 2 && DecimalValue(b) < 60
    requires n == DecimalValue(a) * 60 + DecimalValue(b)
    ensures ParseTime(a + ":" + b) == Some(n)
  {
    var t := a + ":" + b;
    var parts := [a, b];
    assert Join(parts, ':') == t by {
      assert parts[1..] == [b];
    }
    DigitsHaveNoColon(a);
    DigitsHaveNoColon(b);
    assert forall k :: 0 <= k < |parts| ==> ':' !in parts[k];
    SplitJoin(parts, ':');
    assert Split(t, ':') == parts;
    assert Split(t, ':')[0] == a && Split(t, ':')[1] == b;
  }

  /** Decoding a display gives back the number of seconds it shows. */
  lemma {:induction false} FormatTimeRoundTrip(seconds: nat)
    ensures ParseTime(FormatTime(seconds)) == Some(seconds)
  {
    var m := seconds / 60;
    var sec := seconds % 60;
    var a, b := Pad2(m), Pad2(sec);
    assert DecimalValue(a) * 60 + DecimalValue(b) == seconds;
    ParseJoined(a, b, seconds);
  }

  /** Below 100 minutes a display has five characters, up to 999 minutes six. */
  lemma FormatTimeLength(seconds: nat)
    ensures seconds < 6000 ==> |FormatTime(seconds)| == 5
    ensures 6000 <= seconds < 60000 ==> |FormatTime(seconds)| == 6
  {
    var t := FormatTime(seconds);
    assert seconds < 6000 ==> seconds / 60 < 100;
    assert 6000 <= seconds < 60000 ==> 100 <= seconds / 60 < 1000;
  }

  /** Different times never share a display. */
  lemma FormatTimeInjective(a: nat, b: nat)
    requires FormatTime(a) == FormatTime(b)
    ensures a == b
  {
    FormatTimeRoundTrip(a);
    FormatTimeRoundTrip(b);
  }
}

=== FILE: timer.dfy ===
/**
 * The countdown of src/App.jsx as a state machine. Each user action or
 * one-second tick is one function; the React effects the action triggers
 * (the countdown effect and the duration-sync effect) are folded into it,
 * so every function returns the state once the screen has settled.
 */
module Timer {
  import opened Optional
  import opened Duration

  /**
   * The timer's part of the component state. `draft` is the duration form,
   * `customTimes` the saved durations; neither is trusted to hold a valid
   * number, which is why both hold `Number()`-coerced values.
   */
  datatype State = State(
    mode: Mode,
    customTimes: Durations,
    draft: Durations,
    timeLeft: int,
    isActive: bool,
    quote: Option<string>,
    apiError: Option<string>)

  /** The state the component starts in. */
  const Initial := State(Focus, DefaultDurations, DefaultDurations, 25 * 60, false, None, None)

  /**
   * The expiry branch of the countdown effect: at zero the countdown stops
   * and the quote is dropped. (Its other branch arms the interval whose
   * firing is `Tick`.)
   */
  function TimerEffect(s: State): (r: State)
    ensures s.timeLeft == 0 ==> !r.isActive && r.quote == None && r.(isActive := s.isActive, quote := s.quote) == s
    ensures s.timeLeft != 0 ==> r == s
  {
    if s.timeLeft == 0 then s.(isActive := false, quote := None) else s
  }

  /** The effect that runs when the mode or the saved durations change. */
  function SyncEffect(s: State): (r: State)
    ensures !r.isActive && r.timeLeft == ModeSeconds(s.customTimes, s.mode) && r.timeLeft >= 60
    ensures WithinDuration(r)
    ensures r.(isActive := s.isActive, timeLeft := s.timeLeft) == s
  {
    s.(timeLeft := ModeSeconds(s.customTimes, s.mode), isActive := false)
  }

  /**
   * One second passes. Only a running countdown with time left has an
   * interval to fire; it takes exactly one second off, and the expiry
   * branch stops it when that was the last one.
   */
  function Tick(s: State): (r: State)
    ensures s.isActive && s.timeLeft > 1 ==> r == s.(timeLeft := s.timeLeft - 1)
    ensures s.isActive && s.timeLeft == 1 ==> r == s.(timeLeft := 0, isActive := false, quote := None)
    ensures !(s.isActive && s.timeLeft > 0) ==> r == s
  {
    if s.isActive && s.timeLeft > 0 then TimerEffect(s.(timeLeft := s.timeLeft - 1)) else s
  }

  /** `n` seconds with no other event. */
  function Ticks(s: State, n: nat): State
    decreases n
  {
    if n == 0 then s else Ticks(Tick(s), n - 1)
  }

  /**
   * `switchMode(m)` with the sync effect it triggers: a stopped countdown at
   * the full configured length of `m`, with the quote and the quote error
   * cleared and the durations untouched.
   */
  function SwitchMode(s: State, m: Mode): (r: State)
    ensures r.mode == m && !r.isActive
    ensures r.timeLeft == ModeSeconds(s.customTimes, m)
    ensures r.quote == None && r.apiError == None
    ensures r.customTimes == s.customTimes && r.draft == s.draft
  {
    var handled := s.(mode := m, isActive := false, timeLeft := ModeSeconds(s.customTimes, m),
                      quote := None, apiError := None);
    // The sync effect only runs when the mode really changed, but it would
    // write the same values anyway.
    TimerEffect(SyncEffect(handled))
  }

  /** Typing into one field of the duration form; nothing is applied until it is saved. */
  function EditDraft(s: State, m: Mode, v: Num): (r: State)
    ensures r.draft.Get(m) == v
    ensures forall other: Mode :: other != m ==> r.draft.Get(other) == s.draft.Get(other)
    ensures r.(draft := s.draft) == s
  {
    s.(draft := s.draft.With(m, v))
  }

  /**
   * The duration form's submit handler on its own. It reads `getModeSeconds`
   * from before the new durations are in place.
   */
  function SaveHandler(s: State): (r: State)
    ensures r.customTimes == ClampAll(s.draft) && r.draft == r.customTimes && !r.isActive
    ensures r.timeLeft == ModeSeconds(s.customTimes, s.mode)
    ensures r.mode == s.mode && r.quote == s.quote && r.apiError == s.apiError
  {
    var sanitized := ClampAll(s.draft);
    s.(draft := sanitized, customTimes := sanitized, isActive := false,
       timeLeft := ModeSeconds(s.customTimes, s.mode))
  }

  /**
   * Saving the duration form, with the sync effect that the new durations
   * trigger: every mode gets its clamped draft, the form shows the same
   * values, and the countdown stops at the new length of the current mode.
   */
  function SaveDurations(s: State): (r: State)
    ensures forall m: Mode :: r.customTimes.Get(m) == Finite(ClampMinutes(s.draft.Get(m)) as real)
    ensures r.draft == r.customTimes
    ensures !r.isActive && r.timeLeft == ClampMinutes(s.draft.Get(s.mode)) * 60
    ensures r.mode == s.mode && r.quote == s.quote && r.apiError == s.apiError
  {
    TimerEffect(SyncEffect(SaveHandler(s)))
  }

  /** Without the sync effect the countdown would show the old duration. */
  lemma SaveHandlerAloneIsStale()
    ensures var s := Initial.(draft := DefaultDurations.With(Focus, Finite(10.0)));
      SaveHandler(s).timeLeft == 1500 && SaveDurations(s).timeLeft == 600
  {
  }

  /**
   * The Reset button: stops the countdown and puts it back to the built-in
   * length of the mode (`MODES[mode].time`), not to the configured one.
   */
  function Reset(s: State): (r: State)
    ensures !r.isActive && r.timeLeft == DefaultSeconds(s.mode)
    ensures r.(isActive := s.isActive, timeLeft := s.timeLeft) == s
  {
    TimerEffect(s.(isActive := false, timeLeft := DefaultSeconds(s.mode)))
  }

  /**
   * The Play/Pause button flips `isActive` without looking at `timeLeft`;
   * at zero the expiry branch at once stops it again and drops the quote.
   */
  function PlayPause(s: State): (r: State)
    ensures s.timeLeft != 0 ==> r == s.(isActive := !s.isActive)
    ensures s.timeLeft == 0 ==> r == s.(isActive := false, quote := None)
  {
    TimerEffect(s.(isActive := !s.isActive))
  }

  datatype Event =
    | TickEvent
    | PlayPauseEvent
    | ResetEvent
    | SwitchModeEvent(m: Mode)
    | EditDraftEvent(field: Mode, v: Num)
    | SaveDurationsEvent

  function Step(s: State, e: Event): State {
    match e
    case TickEvent => Tick(s)
    case PlayPauseEvent => PlayPause(s)
    case ResetEvent => Reset(s)
    case SwitchModeEvent(m) => SwitchMode(s, m)
    case EditDraftEvent(m, v) => EditDraft(s, m, v)
    case SaveDurationsEvent => SaveDurations(s)
  }

  // ---------------------------------------------------------------------------
  // Invariants

  /** The countdown is never negative and never runs at zero. */
  predicate Consistent(s: State) {
    0 <= s.timeLeft && (s.timeLeft == 0 ==> !s.isActive)
  }

  /** The countdown does not exceed the configured length of the current mode. */
  predicate WithinDuration(s: State) {
    s.timeLeft <= ModeSeconds(s.customTimes, s.mode)
  }

  lemma InitialIsConsistent()
    ensures Consistent(Initial) && WithinDuration(Initial)
  {
  }

  /** Every event keeps the countdown non-negative and stopped at zero. */
  lemma StepKeepsConsistent(s: State, e: Event)
    requires Consistent(s)
    ensures Consistent(Step(s, e))
  {
  }

  /** Every event except Reset keeps the countdown within the configured length. */
  lemma StepKeepsWithinDuration(s: State, e: Event)
    requires WithinDuration(s)
    requires !e.ResetEvent?
    ensures WithinDuration(Step(s, e))
  {
  }

  /** Reset keeps the bound exactly when the configured length is at least the built-in one. */
  lemma ResetWithinDurationIff(s: State)
    ensures WithinDuration(Reset(s)) <==> DefaultSeconds(s.mode) <= ModeSeconds(s.customTimes, s.mode)
  {
  }

  /** With focus set to 10 minutes, Reset puts 25 minutes on the clock. */
  lemma ResetCanExceedDuration()
    ensures var s := SaveDurations(Initial.(draft := DefaultDurations.With(Focus, Finite(10.0))));
      WithinDuration(s) && !WithinDuration(Reset(s)) && Reset(s).timeLeft == 1500
  {
  }

  // ---------------------------------------------------------------------------
  // Counting down

  /**
   * From a running countdown at `N` seconds, `t <= N` ticks leave `N - t`
   * seconds, still running until the last one, stopped (quote dropped) at zero.
   */
  lemma {:induction false} Countdown(s: State, t: nat)
    requires s.isActive && 0 < s.timeLeft && t <= s.timeLeft
    ensures t < s.timeLeft ==> Ticks(s, t) == s.(timeLeft := s.timeLeft - t)
    ensures t == s.timeLeft ==> Ticks(s, t) == s.(timeLeft := 0, isActive := false, quote := None)
    decreases t
  {
    if t > 0 {
      var next := Tick(s);
      if s.timeLeft > 1 {
        Countdown(next, t - 1);
      } else {
        assert Ticks(next, 0) == next;
      }
    }
  }

  /** A countdown that is not running ignores any number of ticks. */
  lemma {:induction false} IdleIgnoresTicks(s: State, n: nat)
    requires !(s.isActive && s.timeLeft > 0)
    ensures Ticks(s, n) == s
    decreases n
  {
    if n > 0 {
      IdleIgnoresTicks(Tick(s), n - 1);
    }
  }

  /**
   * Pausing at `N` seconds and resuming after any number of ticks resumes at
   * exactly `N`: a pause neither loses nor owes seconds.
   */
  lemma PauseResume(s: State, n: nat)
    requires s.isActive && s.timeLeft > 0
    ensures Ticks(PlayPause(s), n) == PlayPause(s)
    ensures PlayPause(Ticks(PlayPause(s), n)) == s
  {
    IdleIgnoresTicks(PlayPause(s), n);
  }

  /** Running out is idempotent: once expired, the expiry branch changes nothing more. */
  lemma ExpiryIdempotent(s: State)
    requires s.timeLeft == 0
    ensures TimerEffect(TimerEffect(s)) == TimerEffect(s)
    ensures !TimerEffect(s).isActive && TimerEffect(s).quote == None
    ensures Tick(TimerEffect(s)) == TimerEffect(s)
  {
  }

  /**
   * Start with the defaults, pick focus, press Play, let 1500 seconds pass:
   * the countdown is at zero and stopped; switching to a short break then
   * shows 300 seconds, stopped.
   */
  lemma FocusSessionScenario()
    ensures var running := PlayPause(SwitchMode(Initial, Focus));
      var done := Ticks(running, 1500);
      && done.timeLeft == 0 && !done.isActive
      && SwitchMode(done, ShortBreak).timeLeft == 300 && !SwitchMode(done, ShortBreak).isActive
  {
    var running := PlayPause(SwitchMode(Initial, Focus));
    Countdown(running, 1500);
  }

  /** Saving twice is the same as saving once. */
  lemma {:induction false} SaveDurationsIdempotent(s: State)
    ensures SaveDurations(SaveDurations(s)) == SaveDurations(s)
  {
    ClampAllIdempotent(s.draft);
  }
}

=== FILE: youtube.dfy ===
/**
 * Turning a YouTube link into an embeddable player URL
 * (`parseYouTubeLink` and `buildYouTubeEmbed` in src/App.jsx). Watch links,
 * shorts, embed links, youtu.be links and playlists are recognised.
 */
module YouTube {
  import opened Optional
  import opened JsText

  /** The parts of a parsed URL the link parser reads: its query parameters and its path. */
  datatype Url = Url(query: map<string, string>, pathname: string)

  /** `new URL(link)`; `None` when the constructor throws. */
  type UrlParser = string -> Option<Url>

  /** What `parseYouTubeLink` returns. */
  datatype LinkIds = LinkIds(videoId: Option<string>, playlistId: Option<string>)

  /** The concatenation of all pieces. */
  function Concat(parts: seq<string>): string
    decreases |parts|
  {
    if |parts| == 0 then "" else parts[0] + Concat(parts[1..])
  }

  /** `s` with every `c` removed. */
  function Without(s: string, c: char): string
    decreases |s|
  {
    if |s| == 0 then "" else (if s[0] == c then "" else [s[0]]) + Without(s[1..], c)
  }

  /** The pieces of a split hold exactly the characters that are not separators. */
  lemma {:induction false} ConcatSplit(s: string, sep: char)
    ensures Concat(Split(s, sep)) == Without(s, sep)
    decreases |s|
  {
    if |s| > 0 {
      ConcatSplit(s[1..], sep);
      var rest := Split(s[1..], sep);
      assert Concat(rest) == rest[0] + Concat(rest[1..]);
      if s[0] != sep {
        var parts := [[s[0]] + rest[0]] + rest[1..];
        assert parts[1..] == rest[1..];
        assert Concat(parts) == [s[0]] + rest[0] + Concat(rest[1..]);
      } else {
        assert ([""] + rest)[1..] == rest;
      }
    }
  }

  /** `.filter(Boolean)` on strings: the non-empty pieces, in order. */
  function DropEmpty(parts: seq<string>): (r: seq<string>)
    ensures forall k :: 0 <= k < |r| ==> r[k] != "" && r[k] in parts
    ensures forall k :: 0 <= k < |parts| && parts[k] != "" ==> parts[k] in r
    ensures Concat(r) == Concat(parts)
    decreases |parts|
  {
    if |parts| == 0 then []
    else if parts[0] == "" then
      assert Concat(parts) == "" + Concat(parts[1..]);
      DropEmpty(parts[1..])
    else [parts[0]] + DropEmpty(parts[1..])
  }

  /** Filtering works piece by piece, so it keeps order and multiplicity. */
  lemma {:induction false} DropEmptyAppend(a: seq<string>, b: seq<string>)
    ensures DropEmpty(a + b) == DropEmpty(a) + DropEmpty(b)
    decreases |a|
  {
    if |a| > 0 {
      assert (a + b)[1..] == a[1..] + b;
      DropEmptyAppend(a[1..], b);
    } else {
      assert a + b == b;
    }
  }

  /**
   * `pathname.split('/').filter(Boolean)`: non-empty, slash-free segments
   * that together hold every character of the path but its slashes.
   */
  function PathSegments(pathname: string): (segs: seq<string>)
    ensures forall k :: 0 <= k < |segs| ==> segs[k] != "" && '/' !in segs[k]
    ensures Concat(segs) == Without(pathname, '/')
  {
    var parts := Split(pathname, '/');
    ConcatSplit(pathname, '/');
    DropEmpty(parts)
  }

  /**
   * A path `/p1/…/pn` of slash-free pieces, empty ones included (doubled or
   * trailing slashes), splits into its non-empty pieces, in order.
   */
  lemma {:induction false} PathSegmentsOfJoin(parts: seq<string>)
    requires |parts| >= 1
    requires forall k :: 0 <= k < |parts| ==> '/' !in parts[k]
    ensures PathSegments("/" + Join(parts, '/')) == DropEmpty(parts)
  {
    var all := [""] + parts;
    assert all[1..] == parts;
    assert Join(all, '/') == "/" + Join(parts, '/');
    SplitJoin(all, '/');
    assert DropEmpty(all) == DropEmpty(parts);
  }

  lemma {:induction false} DropEmptyOfNonEmpty(segs: seq<string>)
    requires forall k :: 0 <= k < |segs| ==> segs[k] != ""
    ensures DropEmpty(segs) == segs
    decreases |segs|
  {
    if |segs| > 0 {
      DropEmptyOfNonEmpty(segs[1..]);
    }
  }

  /**
   * The path rules used when there is no `v` parameter: the segment after a
   * leading `shorts` or `embed`, otherwise the last segment, and nothing for
   * an empty path.
   */
  function VideoIdFromPath(parts: seq<string>): (r: Option<string>)
    ensures r.Some? <==> |parts| >= 1
    ensures r.Some? ==> r.value in parts
    ensures |parts| >= 2 && (parts[0] == "shorts" || parts[0] == "embed") && parts[1] != "" ==> r == Some(parts[1])
    ensures |parts| >= 1 && !(|parts| >= 2 && (parts[0] == "shorts" || parts[0] == "embed") && parts[1] != "") ==>
      r == Some(parts[|parts| - 1])
  {
    if |parts| >= 2 && parts[0] == "shorts" && parts[1] != "" then Some(parts[1])
    else if |parts| >= 2 && parts[0] == "embed" && parts[1] != "" then Some(parts[1])
    else if |parts| >= 1 then Some(parts[|parts| - 1])
    else None
  }

  /**
   * `parseYouTubeLink` on an already-parsed URL: the playlist is the `list`
   * parameter; the video is a truthy `v` parameter, else whatever the path
   * rules find, else `v` as it was. A link that does not parse yields neither.
   */
  function ParseLink(u: Option<Url>): (r: LinkIds)
    ensures u.None? ==> r == LinkIds(None, None)
    ensures u.Some? ==> r.playlistId == Lookup(u.value.query, "list")
    ensures u.Some? && Truthy(Lookup(u.value.query, "v")) ==> r.videoId == Lookup(u.value.query, "v")
    ensures u.Some? && !Truthy(Lookup(u.value.query, "v")) ==>
      (Truthy(r.videoId) <==> |PathSegments(u.value.pathname)| >= 1)
  {
    match u
    case None => LinkIds(None, None)
    case Some(url) =>
      var playlistId := Lookup(url.query, "list");
      var v := Lookup(url.query, "v");
      var videoId :=
        if Truthy(v) then v
        else
          match VideoIdFromPath(PathSegments(url.pathname))
          case Some(id) => Some(id)
          case None => v;
      LinkIds(videoId, playlistId)
  }

  const EmbedBase := "https://www.youtube.com/embed/"
  const SeriesPrefix := EmbedBase + "videoseries?list="
  const SeriesParams := "&autoplay=1&mute=1&controls=0&rel=0&loop=1&enablejsapi=1&playsinline=1"
  const VideoParams := "autoplay=1&mute=1&controls=0&rel=0&loop=1"
  const VideoTail := "&enablejsapi=1&playsinline=1"

  /** The `videoseries` player for playlist `p`. */
  function SeriesEmbed(p: string): (e: string)
    ensures StartsWith(e, EmbedBase) && StartsWith(e, SeriesPrefix + p) && EndsWith(e, SeriesParams)
  {
    var head := SeriesPrefix + p;
    var e := head + SeriesParams;
    assert head[..|EmbedBase|] == EmbedBase;
    assert e[..|head|] == head;
    assert e[|e| - |SeriesParams|..] == SeriesParams;
    e
  }

  /** The player for video `v`, looping over itself as a one-item playlist. */
  function VideoEmbed(v: string): (e: string)
    ensures StartsWith(e, EmbedBase) && StartsWith(e, EmbedBase + v + "?")
    ensures EndsWith(e, "&playlist=" + v + VideoTail)
  {
    var head := EmbedBase + v + "?";
    var tail := "&playlist=" + v + VideoTail;
    var e := head + (VideoParams + tail);
    assert head[..|EmbedBase|] == EmbedBase;
    assert e[..|head|] == head;
    assert e[|e| - |tail|..] == tail;
    e
  }

  /**
   * `buildYouTubeEmbed` once the ids are known: a truthy playlist wins and
   * gives a `videoseries` player; otherwise a truthy video gives a player that
   * names the video twice, once as the video and once as its own one-item
   * loop playlist; with neither there is no embed.
   */
  function BuildEmbed(ids: LinkIds): (r: Option<string>)
    ensures r.Some? <==> Truthy(ids.playlistId) || Truthy(ids.videoId)
    ensures r.Some? ==> StartsWith(r.value, EmbedBase)
    ensures Truthy(ids.playlistId) ==>
      StartsWith(r.value, SeriesPrefix + ids.playlistId.value) && EndsWith(r.value, SeriesParams)
    ensures !Truthy(ids.playlistId) && Truthy(ids.videoId) ==>
      && StartsWith(r.value, EmbedBase + ids.videoId.value + "?")
      && EndsWith(r.value, "&playlist=" + ids.videoId.value + VideoTail)
  {
    if Truthy(ids.playlistId) then Some(SeriesEmbed(ids.playlistId.value))
    else if Truthy(ids.videoId) then Some(VideoEmbed(ids.videoId.value))
    else None
  }

  /** `buildYouTubeEmbed(link)`: trim, parse, then build. */
  function EmbedLink(parse: UrlParser, link: string): (r: Option<string>)
    ensures r.Some? ==> StartsWith(r.value, EmbedBase)
  {
    BuildEmbed(ParseLink(parse(Trim(link))))
  }

  // ---------------------------------------------------------------------------
  // The link shapes the parser is meant for

  /** `youtube.com/watch?v=ID`: the `v` parameter is the video. */
  lemma WatchLink(path: string, id: string)
    requires id != ""
    ensures ParseLink(Some(Url(map["v" := id], path))) == LinkIds(Some(id), None)
  {
  }

  /** Without a truthy `v`, the video comes from the path rules when the path has segments. */
  lemma ParseLinkFromPath(url: Url)
    requires !Truthy(Lookup(url.query, "v"))
    requires |PathSegments(url.pathname)| >= 1
    ensures ParseLink(Some(url)).videoId == VideoIdFromPath(PathSegments(url.pathname))
  {
  }

  /** A link with no query: the video is what the path rules find, and there is no playlist. */
  lemma PathOnlyLink(path: string)
    requires |PathSegments(path)| >= 1
    ensures ParseLink(Some(Url(map[], path))) == LinkIds(VideoIdFromPath(PathSegments(path)), None)
  {
    var url := Url(map[], path);
    assert Lookup(url.query, "v") == None && Lookup(url.query, "list") == None;
    ParseLinkFromPath(url);
  }

  /** `youtube.com/shorts/ID/...` and `youtube.com/embed/ID/...`: the segment after the marker. */
  lemma MarkedPathLink(segs: seq<string>)
    requires |segs| >= 2 && (segs[0] == "shorts" || segs[0] == "embed")
    requires forall k :: 0 <= k < |segs| ==> segs[k] != "" && '/' !in segs[k]
    ensures ParseLink(Some(Url(map[], "/" + Join(segs, '/')))) == LinkIds(Some(segs[1]), None)
  {
    PathSegmentsOfJoin(segs);
    DropEmptyOfNonEmpty(segs);
    PathOnlyLink("/" + Join(segs, '/'));
  }

  /** `youtu.be/ID`: the only segment. */
  lemma ShortLink(id: string)
    requires id != "" && '/' !in id
    ensures ParseLink(Some(Url(map[], "/" + id))) == LinkIds(Some(id), None)
  {
    var path := "/" + id;
    assert Join([id], '/') == id;
    PathSegmentsOfJoin([id]);
    assert DropEmpty([id]) == [id] by { DropEmptyOfNonEmpty([id]); }
    assert PathSegments(path) == [id];
    assert VideoIdFromPath([id]) == Some(id);
    PathOnlyLink(path);
  }

  /** `youtu.be/ID/`: a trailing slash adds no segment. */
  lemma TrailingSlashLink(id: string)
    requires id != "" && '/' !in id
    ensures ParseLink(Some(Url(map[], "/" + id + "/"))) == LinkIds(Some(id), None)
  {
    var path := "/" + id + "/";
    assert Join([id, ""], '/') == id + "/";
    assert path == "/" + Join([id, ""], '/');
    PathSegmentsOfJoin([id, ""]);
    assert DropEmpty([id, ""]) == [id] by { assert [id, ""][1..] == [""]; }
    assert PathSegments(path) == [id];
    assert VideoIdFromPath([id]) == Some(id);
    PathOnlyLink(path);
  }

  /** Any other path (`/live/ID`, `/a/b/ID`): the last segment. */
  lemma LastSegmentLink(segs: seq<string>)
    requires |segs| >= 1 && segs[0] != "shorts" && segs[0] != "embed"
    requires forall k :: 0 <= k < |segs| ==> segs[k] != "" && '/' !in segs[k]
    ensures ParseLink(Some(Url(map[], "/" + Join(segs, '/')))) == LinkIds(Some(segs[|segs| - 1]), None)
  {
    var path := "/" + Join(segs, '/');
    PathSegmentsOfJoin(segs);
    DropEmptyOfNonEmpty(segs);
    assert PathSegments(path) == segs;
    assert VideoIdFromPath(segs) == Some(segs[|segs| - 1]);
    PathOnlyLink(path);
  }

  /** Any link with a truthy `list` gives the playlist player, whatever the video. */
  lemma PlaylistWins(url: Url)
    requires Truthy(Lookup(url.query, "list"))
    ensures BuildEmbed(ParseLink(Some(url))) == Some(SeriesPrefix + url.query["list"] + SeriesParams)
  {
  }

  /** Without a truthy `list`, a truthy `v` gives the video player, which loops over that video alone. */
  lemma VideoWins(url: Url)
    requires !Truthy(Lookup(url.query, "list"))
    requires Truthy(Lookup(url.query, "v"))
    ensures var v := url.query["v"];
      BuildEmbed(ParseLink(Some(url))) == Some(EmbedBase + v + "?" + VideoParams + "&playlist=" + v + VideoTail)
  {
    var v := url.query["v"];
    assert EmbedBase + v + "?" + VideoParams + "&playlist=" + v + VideoTail
      == (EmbedBase + v + "?") + (VideoParams + ("&playlist=" + v + VideoTail));
  }

  /** A link that does not parse has no embed. */
  lemma UnparsableHasNoEmbed(parse: UrlParser, link: string)
    requires parse(Trim(link)).None?
    ensures EmbedLink(parse, link) == None
  {
  }
}
